=== FILE: README.md ===
# A verified model of the InstaClone CTF backend core

InstaClone is a photo-sharing web backend (posts, likes, saves, follows,
notifications, direct messages) with a capture-the-flag game built in:
deliberately planted weaknesses, each detected by the server. On its first
discovery a weakness awards the user points through one scoring routine,
and a leaderboard mirrors each user's totals. This project models in
Dafny the sequential logic of that core:

- **the scoring ledger**: `trigger_bug_found`, `BugSolve.save`,
  `Leaderboard.update_stats` and the leaderboard order;
- **the two sliding-window detectors**:
  - save races: 10 saves of one post within 5 s;
  - missing login rate limiting: 10 failures per (client IP, username)
    within 300 s;
- **the password-reset flow and its predictable token**:
  - the link is `uuid-b64(username)`;
  - the verifier classifies the token and records the discoveries;
  - discoveries made while logged out stay pending until a later login
    claims them;
- **the social graph**:
  - the like and save toggles;
  - follow and unfollow with the self-guard;
  - get-or-create notifications with self-suppression;
  - the post delete;
  - profile visibility of private posts;
  - the self-message constraint;
- **the CTF role and post-image endpoints**;
- **the serializers' validators and formatters**: comment text, caption,
  image, "time ago", caption preview;
- **the WebSocket side**: the token middleware, and the chat consumer's
  connect gate and message handling, compared with the HTTP message
  endpoint.

The model is functional throughout. Storage is a record of sets and maps:
relations with a uniqueness constraint are sets of id pairs, so the
constraint holds by construction. Each request is a pure function from the
old state to the new state and the reply. The clock is an integer
parameter in whole seconds; the source's strict `now - t < width`
comparisons are kept. The `uuid4()` text and the result of password
authentication are also parameters. Base64 (section 4 of RFC 4648) is
implemented, and its decode-after-encode round trip is proved.

| module | file | models |
|---|---|---|
| `Wrappers` | wrappers.dfy | the optional value and the result with an error |
| `Text` | text.dfy | Python `str.strip`, ASCII `lower`, affix tests, decimal rendering of ids |
| `Base64` | base64.dfy | standard base64 encoding and strict decoding |
| `Scoring` | scoring.dfy | `trigger_bug_found`, `BugSolve.save`, `Leaderboard.update_stats` |
| `Ranking` | ranking.dfy | `Leaderboard.Meta.ordering` |
| `Window` | window.dfy | pruning and recording of attempt times |
| `Social` | social.dfy | likes, saves, follows, notifications, delete, profile visibility, messages |
| `SaveRace` | saverace.dfy | both save endpoints and their race detector |
| `Pending` | pending.dfy | session lists of pending discoveries, claim priority |
| `Login` | login.dfy | `LoginView.post`, `get_client_ip` |
| `ResetToken` | resettoken.dfy | forgot-password, reset-password and verify views |
| `Serializers` | serializers.dfy | field validators, `get_time_ago`, caption preview |
| `CtfViews` | ctfviews.dfy | `SetUserRoleView.post`, `serve_post_image` |
| `TokenAuth` | tokenauth.dfy | `TokenAuthMiddleware.__call__` |
| `Chat` | chat.dfy | `ChatConsumer`, `MessageListView.post` |

## Model

| member | source | states |
|---|---|---|
| Text.Strip | backend/core/serializers.py:169 | The result is the input with its leading and trailing Python whitespace removed; it is empty exactly when the input is all whitespace, and otherwise starts and ends with a non-space. |
| Text.StripIdempotent | backend/core/serializers.py:212 | Stripping stripped text changes nothing. |
| Base64.Encode | backend/core/core_views.py:1005 | The encoding has length 4·⌈n/3⌉, uses only the RFC 4648 section 4 alphabet and padding, and never contains `-`. |
| Base64.DecodeEncode | backend/core/core_views.py:1005-1009 | Decoding the encoding of any byte string gives back that byte string. |
| Scoring.BugSolveSave | backend/core/models.py:157-165 | A first save credits exactly the bug's points and one solve; saving an existing row changes nothing. |
| Scoring.UpdateStats | backend/core/models.py:179-183 | The leaderboard row's totals equal the user's points and solved count. |
| Scoring.TriggerBugFound | backend/core/ctf_views.py:35-90 | The bug row is created only for a new title. The solve set gains (user, title). Other users are unchanged. A repeat solve awards 0, reports failure and changes no account or row. A first solve reports `points` but credits the stored bug points plus `points` and two solves, and leaves the row mirroring the user. |
| Scoring.RepeatAwardIsNoOp | backend/core/ctf_views.py:52-81 | Asking again for a solved bug, with any points, leaves the ledger unchanged and awards nothing. |
| Scoring.StoredPointsNeverChange | backend/core/ctf_views.py:42-49 | A bug row keeps the points it was created with. |
| Scoring.TriggerKeepsValid | backend/core/models.py:10-11 | With positive points, the declared lower bounds of points, solve counts, bug points and leaderboard totals are preserved. |
| Scoring.TriggerKeepsInSync | backend/core/ctf_views.py:63-65 | Every leaderboard row still mirrors its user, and every solve row still refers to an existing user and bug. |
| Scoring.TriggerKeepsCountsTwice | backend/core/models.py:162-165 | As written, each user's `bugs_solved` stays exactly twice the number of bugs they solved. |
| Scoring.FirstSolveCountsTwice | backend/core/ctf_views.py:57-60 | A user with no points solving the 50-point escalation bug is told +50 but ends with 100 points and two solves. |
| Scoring.TriggerBugFoundOnce | backend/core/models.py:157-165 | The corrected step credits once and reports exactly the points credited. |
| Scoring.OnceKeepsCountsOnce | backend/core/models.py:151-165 | With the corrected step, `bugs_solved` stays equal to the number of solved bugs. |
| Ranking.NotBelowIsTotalPreorder | backend/core/models.py:174 | Ordering by total points and then bugs solved, both descending, is reflexive, total and transitive. |
| Ranking.Insert | backend/core/models.py:174 | Placing a row into a ranked list keeps it ranked and adds exactly that row. |
| Ranking.Rank | backend/core/models.py:173-174 | The leaderboard in display order is ranked and is a permutation of its rows. |
| Window.Prune | backend/core/ctf_views.py:390 | Keeps exactly the times younger than the window, in order. An all-recent list is kept whole and an all-stale list becomes empty. |
| Window.PruneIsSubsequence | backend/core/core_views.py:549 | The pruned list is a subsequence of the original. |
| Window.PruneIdempotent | backend/core/core_views.py:549 | Pruning again at the same instant removes nothing more. |
| Window.Record | backend/core/ctf_views.py:390-393 | After recording, the newest time is `now` and every kept time is inside the window. |
| Social.Notify | backend/core/core_views.py:35-54 | A self-action creates nothing. An existing notification with the same identifying fields is reused. Otherwise exactly one unread notification is appended. Distinct keys are preserved. |
| Social.NotifyCtf | backend/core/ctf_views.py:338-368 | A self-action creates nothing. A save on a post that already has a save notice from that sender creates nothing. Every other call appends exactly one new unread notification. A save notice exists after a save, and at most one save notification per (receiver, sender, post) is preserved. |
| Social.Like | backend/core/core_views.py:103-142 | Toggles the (user, post) like and reports the new state and the like count. A missing post gives 404. Only a new like on someone else's post can notify, and no other relation changes. |
| Social.LikeTwiceRestores | backend/core/core_views.py:112-130 | Two likes in a row restore the like set and report opposite states. |
| Social.OwnLikeNeverNotifies | backend/core/core_views.py:124-130 | Liking one's own post never notifies. |
| Social.LikeCyclesNotifyOnce | backend/core/core_views.py:35-54 | Over any number of like and unlike requests, the owner holds at most one like notification from that user for that post. |
| Social.DistinctKeysCountAtMostOne | backend/core/core_views.py:40-49 | Under distinct keys a key occurs at most once, and occurs exactly when it is among the keys. |
| Social.SaveToggle | backend/core/ctf_views.py:428-454 | Flips (user, post) in the saves and reports the new state. Only a new save of someone else's post may notify. The one-save-notice invariant is kept. |
| Social.Follow | backend/core/core_views.py:1685-1724 | An unknown target gives 404 and oneself gives 400. Otherwise the pair is added and the reply is `is_following: true`; a new follow also notifies the target, and the users, posts, likes and saves stay. A repeat changes nothing. No self-follow and distinct notification keys are preserved. |
| Social.Unfollow | backend/core/core_views.py:1733-1765 | An unknown target gives 404 and oneself gives 400. Otherwise the pair is removed, nothing else changes, and the reply is `is_following: false`. |
| Social.FollowIdempotent | backend/core/core_views.py:1700-1758 | A follow repeated, and an unfollow repeated, each give the same state and reply as the first. |
| Social.RefollowDoesNotRenotify | backend/core/core_views.py:1700-1717 | Follow, unfollow and follow again leave exactly the one follow notification from the first follow. |
| Social.RemovePost | backend/core/core_views.py:100 | The owner's delete removes the post and every like, save and notification that refers to it; every other like, save and notification is kept, and users and follows stay. |
| Social.DeletePost | backend/core/core_views.py:91-100 | As written, an existing post always yields 204. A non-owner's request leaves the store unchanged; the owner's removes the post. |
| Social.NonOwnerDeleteReportsSuccess | backend/core/core_views.py:95-100 | A non-owner is told 204 No Content while the post is still there. |
| Social.DeletePostGuarded | backend/core/core_views.py:95-99 | The corrected delete refuses a non-owner with 403. 204 is answered exactly when the post was removed, and any other reply changes nothing. |
| Social.GuardedDeleteAgreesForOwner | backend/core/core_views.py:91-100 | The corrected delete and the delete as written agree on every request by the owner. |
| Social.ProfilePosts | backend/core/core_views.py:1890-1895 | The listing holds exactly the owner's posts, minus the private ones unless the viewer is the owner. |
| Social.ProfileView | backend/core/core_views.py:1886-1903 | An unknown username gives 500, because the lookup's 404 is caught by the catch-all. A known one lists exactly that user's posts that the viewer may see. |
| Social.PrivatePostsStayPrivate | backend/core/core_views.py:1891-1895 | A private post is listed if and only if its owner views their own profile. |
| Social.NewMessage | backend/core/models.py:112-117 | A message is refused exactly when sender and receiver coincide. |
| SaveRace.TrackerKeyInjective | backend/core/ctf_views.py:387 | Two (user, post) pairs share a tracker key if and only if they are equal. |
| SaveRace.SaveAttempt | backend/core/ctf_views.py:386-454 | Only this request's key changes. A race is detected exactly when the recent attempts plus this one reach 10; it empties the key, leaves the saves alone and runs `trigger_bug_found` with 50 points. Otherwise the save is toggled and the time recorded. |
| SaveRace.SavePostView | backend/core/ctf_views.py:380-464 | A missing post is answered 500; otherwise the request is a save attempt. |
| SaveRace.ViewSetSave | backend/core/core_views.py:145-237 | A missing post is answered 404; otherwise the request is a save attempt. |
| SaveRace.SaveAttemptKeepsBelowThreshold | backend/core/ctf_views.py:396-405 | Between requests, no tracker entry holds 10 or more attempts. |
| SaveRace.TenthAttemptTriggers | backend/core/ctf_views.py:396-405 | Nine recent attempts make the next one detected, with the saves unchanged. |
| SaveRace.StaleAttemptsDoNotCount | backend/core/ctf_views.py:390 | When every earlier attempt has left the window, the request toggles. |
| SaveRace.AfterRaceNextAttemptToggles | backend/core/ctf_views.py:405 | After a detection the next request counts one and toggles. |
| SaveRace.TwoTogglesRestoreSaves | backend/core/ctf_views.py:429-439 | With at most seven stored attempts, two requests both toggle, report opposite states and leave the saves as they were. |
| Pending.AddOnce | backend/core/core_views.py:1280-1283 | The title is present afterwards. A title already present changes nothing, and the list stays duplicate-free. |
| Pending.RemoveAll | backend/core/core_views.py:724-726 | Every entry with the title is removed, the rest are kept, and the list stays duplicate-free. |
| Pending.FirstPending | backend/core/core_views.py:701-710 | The claimed title is a pending title of the priority list, and none is claimed when no listed title is pending. |
| Pending.FirstPendingRespectsPriority | backend/core/core_views.py:709-783 | No pending title that comes earlier in the list is skipped. |
| Pending.EmptyTokenNeverClaimed | backend/core/core_views.py:701-707 | The empty-token title is never claimed by a login. |
| Pending.Discover | backend/core/core_views.py:1251-1284 | A logged-in requester is awarded 100 points at once. An anonymous one gets the title recorded once in the session's pending list. |
| Pending.AnonymousDiscoveryIdempotent | backend/core/core_views.py:1280-1283 | Repeating an anonymous discovery changes nothing. |
| Login.FirstField | backend/core/core_views.py:896 | The result is the comma-free prefix of the value that ends at its first comma, or at its end. |
| Login.ClientIp | backend/core/core_views.py:890-899 | Never empty. Uses the first X-Forwarded-For field when that header is present, else REMOTE_ADDR, falling back to `127.0.0.1`. |
| Login.ClientIpIsFirstHop | backend/core/core_views.py:890-899 | The address is the fallback, a comma-free prefix of X-Forwarded-For, or REMOTE_ADDR. |
| Login.LeadingCommaFallsBack | backend/core/core_views.py:894-899 | A forwarded-for value starting with a comma yields the fallback even when REMOTE_ADDR is known. |
| Login.Fail | backend/core/core_views.py:793-888 | Only this key's counter changes. Below 10 recent failures the reply reports n attempts and 10 − n remaining. At 10 the counter is deleted and the rate-limit discovery is pending once, in the session and in the cache. |
| Login.Succeed | backend/core/core_views.py:571-792 | The failure counter is cleared. A pending rate-limit discovery is claimed first, for 75 points. Otherwise the first pending reset discovery in priority order is claimed, for 100 points. Each claim is removed from where it was pending. Nothing else is cleared: other failure counters, rate-limit keys and pending titles stay. |
| Login.Submit | backend/core/core_views.py:520-530 | Missing credentials give 400 with nothing changed. Otherwise the authentication result decides between a failure and a success. |
| Login.AttemptsRemainingInRange | backend/core/core_views.py:883-888 | An ordinary failure reports 1 to 9 attempts remaining, adding up to 10 with the failures. |
| Login.StoredFailuresInWindow | backend/core/core_views.py:549 | Every stored failure time is younger than 300 s, and the newest is now. |
| Login.DetectionResetsCounter | backend/core/core_views.py:815-856 | The failure after a detection counts one, with nine remaining. |
| Login.TenthFailureDetected | backend/core/core_views.py:815 | Nine recent failures make the next one a detection of ten. |
| Login.DetectionPendsOnce | backend/core/core_views.py:824-843 | However many failures occur, the rate-limit title is pending at most once, and neither the ledger nor the other list changes. |
| Login.RateLimitClaimedOnce | backend/core/core_views.py:609-630 | Once claimed, the rate-limit discovery is not claimed again by the next login. |
| ResetToken.ClassifyToken | backend/core/core_views.py:1300-1315 | Empty gives Empty. A leading or trailing dash gives Malformed. No dash gives Invalid Format. Anything else is well formed. Each class is stated as an if-and-only-if. |
| ResetToken.TripleDashIsMalformed | backend/core/core_views.py:1300-1311 | `---` is malformed. |
| ResetToken.RSplitOnce | backend/core/core_views.py:1369 | `rsplit('-', 1)` gives one part exactly when there is no dash. Two parts rejoin to the input, and the second holds no dash. |
| ResetToken.RSplitJoin | backend/core/core_views.py:1117 | Splitting `a + "-" + b` with a dash-free `b` gives back `[a, b]`. |
| ResetToken.WellFormedSplitsInTwo | backend/core/core_views.py:1369-1371 | A token that passes the class check splits into two non-empty parts, so the structure check never fires. |
| ResetToken.Verify | backend/core/core_views.py:1237-1546 | Valid exactly when the uid decodes, the token is well formed and its suffix decodes to the same username. A bad uid, each malformed token class, an undecodable suffix and a suffix naming another user each record their own discovery, and change nothing else. |
| ResetToken.Forgot | backend/core/core_views.py:982-1009 | A missing email gives 400 and an unknown one 404. Otherwise the uid decodes to the user's name and the token splits into the uuid and the uid. |
| ResetToken.IssuedLinkVerifies | backend/core/core_views.py:1004-1009 | For any non-empty username, the issued link verifies as valid without touching ledger or session. |
| ResetToken.EmptyUsernameLinkIsMalformed | backend/core/core_views.py:1006 | For the empty username, the issued token ends in a dash and is called malformed. |
| ResetToken.Reset | backend/core/core_views.py:1031-1222 | Missing or short passwords are refused first. The password changes exactly for a decodable, known uid and a dashed token whose suffix decodes to the same name. An undecodable or unknown uid is an invalid link, and an undecodable suffix is an invalid token. Only a dash-less token or a mismatched name records a discovery. Only a reset changes the directory. |
| ResetToken.IssuedLinkResets | backend/core/core_views.py:1004-1009 | The issued link resets the password of exactly the user it was issued for. |
| ResetToken.SwappedUidIsFlagged | backend/core/core_views.py:1141-1186 | Pairing another user's uid with one's own token is flagged as predictable, and no password changes. |
| Serializers.ValidateText | backend/core/serializers.py:159-169 | Missing or whitespace-only text gives the empty error. Raw length over 500 gives too long. Otherwise the stripped text is kept: non-empty, at most 500, and no outer whitespace. |
| Serializers.ValidateTextIdempotent | backend/core/serializers.py:202-212 | Accepted text validates again to itself. |
| Serializers.PaddingCountsAgainstLimit | backend/core/serializers.py:166-167 | The validator alone refuses one letter followed by 500 spaces as too long, although stripping leaves one letter. The field's own trimming, which runs first, is left out. |
| Serializers.ValidateCaption | backend/core/serializers.py:122-128 | The validator alone passes a caption unchanged exactly when it has at most 2200 characters. |
| Serializers.CaptionField | backend/core/serializers.py:122-128 | With the caption field's trimming first, a caption is accepted exactly when its stripped text has at most 2200 characters, and the stripped text is what is kept. |
| Serializers.PaddedCaptionAccepted | backend/core/serializers.py:122-128 | The validator alone refuses one letter followed by 2200 spaces, but the field trims it first and keeps just the letter. |
| Serializers.ValidateImage | backend/core/serializers.py:105-120 | A present file over 10 MiB is refused. So is one declaring a type outside jpeg, jpg, png and gif. Otherwise the value passes unchanged. |
| Serializers.AcceptedImageIsAllowed | backend/core/serializers.py:109-120 | An accepted file is within the size limit and of an allowed or undeclared type. |
| Serializers.Bucket | backend/core/serializers.py:262-279 | The age falls into days, hours (1 to 23), minutes (1 to 60) or "now", each as an if-and-only-if on days and the seconds within the day. |
| Serializers.RenderInjective | backend/core/serializers.py:272-279 | Different buckets produce different labels. |
| Serializers.TimeAgo | backend/core/serializers.py:262-279 | The label is the rendering of the age's bucket. |
| Serializers.TimeAgoBoundaries | backend/core/serializers.py:274-279 | 3600 s reads "60m", 60 s reads "now" and 86400 s reads "1d". |
| Serializers.FutureReadsAsHours | backend/core/serializers.py:269-275 | A time ten seconds in the future reads "23h". |
| Serializers.CaptionPreview | backend/core/serializers.py:247 | A caption longer than 50 characters becomes its first 50 plus `...`; a shorter one is unchanged. |
| Serializers.PreviewKeepsStart | backend/core/serializers.py:247 | The preview agrees with the caption on every one of its first 50 positions. |
| CtfViews.SetRole | backend/core/ctf_views.py:152-211 | A role outside the privileged names, after lower-casing, gives 400 and changes nothing. A privileged one awards the escalation bug, and the actual role stays "user". |
| CtfViews.UpperCaseRoleDetected | backend/core/ctf_views.py:159-165 | "ADMIN" is detected as an attempt at "admin". |
| CtfViews.RoleNeverChanges | backend/core/ctf_views.py:173-211 | The reported actual role is always "user", and a second detection awards nothing. |
| CtfViews.ContentType | backend/core/ctf_views.py:252-258 | png for a lower-cased `.png` path, else gif for `.gif`, else jpeg, always an allowed image type. |
| CtfViews.ContentTypeIgnoresCase | backend/core/ctf_views.py:253-255 | The content type depends only on the lower-cased path. |
| CtfViews.ServeImage | backend/core/ctf_views.py:216-269 | A missing post gives 500. Another user's private post awards the privacy bug and serves nothing. A missing file gives 404. Otherwise the stored bytes are served with their content type. |
| CtfViews.PrivateImageNeverServed | backend/core/ctf_views.py:228-245 | Another user's private image is never served. |
| TokenAuth.FirstHeaderToken | backend/core/middleware.py:42-48 | The key is absent exactly when no header is named `authorization` with a `Token ` value. Otherwise it is the remainder of the first such header. |
| TokenAuth.ScanHeaders | backend/core/middleware.py:42-48 | The header loop returns the key of the first matching header. |
| TokenAuth.TokenKey | backend/core/middleware.py:35-48 | A non-empty first `token` query value wins. Otherwise the headers decide. |
| TokenAuth.ConnectionUser | backend/core/middleware.py:10-18 | The connection is authenticated exactly when the key is non-empty and issued, as that key's user. |
| TokenAuth.QueryTokenWins | backend/core/middleware.py:35-39 | With a non-empty query token, the headers do not matter. |
| TokenAuth.LaterHeadersIgnored | backend/core/middleware.py:43-48 | Headers after the first token header never change the key. |
| TokenAuth.BareSchemeIsAnonymous | backend/core/middleware.py:45-54 | A bare `Token ` header makes the connection anonymous, even when a valid token header follows. |
| TokenAuth.HeaderNameIsExact | backend/core/middleware.py:44 | A header named `Authorization` is not read. |
| Chat.GroupNameInjective | backend/core/consumers.py:24 | Different threads use different group names. |
| Chat.Connect | backend/core/consumers.py:22-52 | Anonymous gives 4401, a missing thread 4404 and a non-participant 4403. Otherwise the socket joins `chat_<id>`, which happens exactly for a participant of an existing thread. |
| Chat.AnonymousLearnsNothing | backend/core/consumers.py:30-33 | An anonymous connection gets the same close code whatever threads exist. |
| Chat.Receive | backend/core/consumers.py:64-85 | Blank text is neither stored nor broadcast. Otherwise the stripped text is appended and broadcast exactly when the thread exists; with no broadcast, nothing changes. |
| Chat.StoredTextIsTrimmed | backend/core/consumers.py:69-72 | A stored message is non-empty and has no outer whitespace. |
| Chat.ReceiveTouchesOneThread | backend/core/consumers.py:108-133 | Receiving adds at most one message, to the connection's own thread. |
| Chat.PostMessage | backend/core/core_views.py:2092-2105 | Stores exactly for a participant of an accepted thread with valid data. A missing thread or non-participant gives 404, and an unaccepted thread gives 400. |
| Chat.HttpStoresOnlyAccepted | backend/core/core_views.py:2098-2099 | Any change over HTTP implies an accepted thread and a participant. |
| Chat.SocketIgnoresAcceptance | backend/core/consumers.py:108-133 | In an unaccepted thread the socket stores a message that the HTTP endpoint refuses with 400. |

## Left out

- I/O and plumbing are not modelled: response bodies, permission classes, routing, logging, `print` output and settings.
- The cache and session backends are maps and sets without expiry. Cache TTLs are not modelled.
- Session-key cache backups of anonymous reset discoveries (`ctf_*_attempt_<session>`) are not modelled. Only the session's pending list and the rate-limit cache entry are.
- Concurrency is not modelled: the unguarded `get_or_create` race, the channel layer's `group_add`/`group_send`, and async execution.
- `uuid4()` randomness is a parameter. So is the result of `authenticate`. Password hashing is not modelled: a reset records the new password as given.
- Base64.Decode: strict on the alphabet and padding. Python's `b64decode` silently drops non-alphabet characters, so the model flags some inputs that the source would accept.
- Usernames are their UTF-8 bytes. UTF-8 encoding and decoding, and the error path for undecodable bytes, are not modelled.
- `parse_qs` is not modelled: the middleware model takes the already parsed `token` values.
- Text.Lower: ASCII only. This is exact for the privileged role names and the image suffixes, but not for other non-ASCII text.
- A non-string JSON value (for a role or a chat message) raises in the source. This path is not modelled.
- Social.ProfilePosts: the listing is a set, without the newest-first order, because post creation times are not part of the model.
- Serializers.TimeAgo and Serializers.CaptionPreview model the methods as written. `NotificationSerializer` declares fields (`actor`, `verb`, `target_post`) that `Notification` does not have, so in the program these methods never run as written.
- XSS detection and sanitising are not part of this model.
- The comment views, feed, search, thread listing, thread start and accept are not part of this model.
- The first, shadowed definition of `MessageListView.post` is not modelled.
- The socket's broadcast payload (sender summary, timestamps, picture URL) is not modelled.
- `Post.is_private` is not a field of the `Post` model, and the post serializer drops it on create. Social.Post's `isPrivate` is reconstructed from the views that read it. As written, `post.is_private` in `serve_post_image` raises `AttributeError`, which the catch-all answers with 500 for every existing post. Likewise, `filter(user=user, is_private=False)` in `UserPostsView.get` raises `FieldError`, which its catch-all answers with 500 for every viewer other than the owner. CtfViews.ServeImage, Social.ProfilePosts and Social.ProfileView model the evidently intended behaviour over the reconstructed field, not these two 500 paths.
- `ChatThread`, `ChatMessage` and `ChatMessageSerializer` are not defined in the model and serializer files. The chat types are reconstructed from their use. Serializer validity is a parameter of Chat.PostMessage.
- Serializers.ValidateCaption: the bare validator, applied to the raw value. The caption field's own trimming runs first in the program and is modelled separately by Serializers.CaptionField.
- DRF's `CharField` trimming before `validate_text` is not modelled: Serializers.ValidateText applies the validator to the raw value. In the program, "a" plus 500 spaces is trimmed to "a" first and accepted.
- Chat.Receive: the connection is assumed to have been admitted by Connect. Participation is not re-checked on receive, as in the source.
- A missing Post while serving an image, or in the CTF save view, raises `Http404` inside a catch-all handler. Both are modelled as 500, as the code does.
- Two lines are unreachable and are proved so rather than modelled: the `token == '---'` test (ResetToken.TripleDashIsMalformed) and the verifier's "not two parts" reply (ResetToken.WellFormedSplitsInTwo).

## Findings

| source | as written | input that shows it | evidently intended | confidence | as-written member | corrected member |
|---|---|---|---|---|---|---|
| backend/core/ctf_views.py:52-60 with backend/core/models.py:162-165 | Creating the solve row runs `BugSolve.save`, which credits the bug's points and one solve. `trigger_bug_found` then credits `points` and one solve again. | A user with 0 points solves "Privilege Escalation via API Endpoint" (50 points) for the first time: told +50, ends with 100 points and `bugs_solved` 2. | Credit once: `bugs_solved` equals the number of solved bugs, and the reported award equals the credit. | high for the models and view as written, not executed | Scoring.FirstSolveCountsTwice | Scoring.OnceKeepsCountsOnce |
| backend/core/core_views.py:91-100 | `perform_destroy` builds a 403 Response for a non-owner and returns it. `destroy` ignores the return value and answers 204. | User 2 deletes user 1's post: 204 No Content, and the post stays. | A non-owner is refused with 403. | medium, depends on the framework's `destroy` ignoring `perform_destroy`'s value, not executed | Social.NonOwnerDeleteReportsSuccess | Social.DeletePostGuarded |

=== FILE: base64.dfy ===
/** Base64 with the standard alphabet of section 4 of RFC 4648, as the
    password-reset flow uses it to carry a username inside a token. Encoding
    is total; decoding accepts the padded encodings (the unused low bits of a
    final padded group are discarded) and rejects everything else. */
module Base64 {
  import opened Wrappers
  import opened Text

  type byte = x: int | 0 <= x < 256
  type sextet = x: int | 0 <= x < 64

  const Pad: char := '='

  /** Value 0..63 to its character in the RFC 4648 alphabet
      `A-Z a-z 0-9 + /`. */
  function EncodeSextet(v: sextet): (c: char)
  {
    if v < 26 then ('A' as int + v) as char
    else if v < 52 then ('a' as int + (v - 26)) as char
    else if v < 62 then ('0' as int + (v - 52)) as char
    else if v == 62 then '+'
    else '/'
  }

  predicate InAlphabet(c: char) {
    ('A' <= c <= 'Z') || ('a' <= c <= 'z') || ('0' <= c <= '9') || c == '+' || c == '/'
  }

  /** Character to its value, or None for a character outside the alphabet. */
  function DecodeChar(c: char): (r: Option<sextet>)
    ensures r.Some? <==> InAlphabet(c)
  {
    if 'A' <= c <= 'Z' then Some(c as int - 'A' as int)
    else if 'a' <= c <= 'z' then Some(c as int - 'a' as int + 26)
    else if '0' <= c <= '9' then Some(c as int - '0' as int + 52)
    else if c == '+' then Some(62)
    else if c == '/' then Some(63)
    else None
  }

  /** Every encoded character is in the alphabet (so it is neither `-` nor the
      padding character) and decodes back to its value. */
  lemma SextetRoundTrip(v: sextet)
    ensures InAlphabet(EncodeSextet(v))
    ensures DecodeChar(EncodeSextet(v)) == Some(v)
  {
  }

  // The three bytes b0 b1 b2 of a group become the sextets
  // b0[7:2], b0[1:0] b1[7:4], b1[3:0] b2[7:6], b2[5:0].
  function Hi(b0: byte): sextet { b0 / 4 }
  function Mid1(b0: byte, b1: byte): sextet { (b0 % 4) * 16 + b1 / 16 }
  function Mid2(b1: byte, b2: byte): sextet { (b1 % 16) * 4 + b2 / 64 }
  function Lo(b2: byte): sextet { b2 % 64 }

  // And back again.
  function Byte0(c0: sextet, c1: sextet): byte { c0 * 4 + c1 / 16 }
  function Byte1(c1: sextet, c2: sextet): byte { (c1 % 16) * 16 + c2 / 4 }
  function Byte2(c2: sextet, c3: sextet): byte { (c2 % 4) * 64 + c3 }

  lemma GroupRoundTrip(b0: byte, b1: byte, b2: byte)
    ensures Byte0(Hi(b0), Mid1(b0, b1)) == b0
    ensures Byte1(Mid1(b0, b1), Mid2(b1, b2)) == b1
    ensures Byte2(Mid2(b1, b2), Lo(b2)) == b2
  {
  }

  predicate IsEncodedChar(c: char) {
    InAlphabet(c) || c == Pad
  }

  /** Every character of `s` may appear in an encoding. */
  predicate AllEncoded(s: string) {
    forall k :: 0 <= k < |s| ==> IsEncodedChar(s[k])
  }

  /** One full group: three bytes to four characters. */
  function Group3(b0: byte, b1: byte, b2: byte): (g: string)
    ensures |g| == 4 && AllEncoded(g)
  {
    SextetRoundTrip(Hi(b0));
    SextetRoundTrip(Mid1(b0, b1));
    SextetRoundTrip(Mid2(b1, b2));
    SextetRoundTrip(Lo(b2));
    [EncodeSextet(Hi(b0)), EncodeSextet(Mid1(b0, b1)), EncodeSextet(Mid2(b1, b2)), EncodeSextet(Lo(b2))]
  }

  /** Final group of two bytes, padded with one `=`. */
  function Group2(b0: byte, b1: byte): (g: string)
    ensures |g| == 4 && AllEncoded(g)
  {
    SextetRoundTrip(Hi(b0));
    SextetRoundTrip(Mid1(b0, b1));
    SextetRoundTrip(Mid2(b1, 0));
    [EncodeSextet(Hi(b0)), EncodeSextet(Mid1(b0, b1)), EncodeSextet(Mid2(b1, 0)), Pad]
  }

  /** Final group of one byte, padded with `==`. */
  function Group1(b0: byte): (g: string)
    ensures |g| == 4 && AllEncoded(g)
  {
    SextetRoundTrip(Hi(b0));
    SextetRoundTrip(Mid1(b0, 0));
    [EncodeSextet(Hi(b0)), EncodeSextet(Mid1(b0, 0)), Pad, Pad]
  }

  /** `base64.b64encode(data).decode()`. */
  function Encode(data: seq<byte>): (r: string)
    ensures |r| == 4 * ((|data| + 2) / 3)
    ensures AllEncoded(r)
    ensures '-' !in r
    decreases |data|
  {
    if |data| == 0 then ""
    else if |data| == 1 then Group1(data[0])
    else if |data| == 2 then Group2(data[0], data[1])
    else
      var g, rest := Group3(data[0], data[1], data[2]), Encode(data[3..]);
      AllEncodedAppend(g, rest);
      g + rest
  }

  /** Joining two encodings keeps to the alphabet and padding, and so
      never introduces a `-`. */
  lemma AllEncodedAppend(a: string, b: string)
    requires AllEncoded(a) && AllEncoded(b)
    ensures AllEncoded(a + b) && '-' !in a + b
  {
    assert forall k :: 0 <= k < |a + b| ==> (a + b)[k] == if k < |a| then a[k] else b[k - |a|];
  }

  /** Decodes one group of four characters; `last` says whether padding may
      appear in it. */
  function DecodeGroup(g: string, last: bool): (r: Option<seq<byte>>)
    requires |g| == 4
    ensures r.Some? ==> 1 <= |r.value| <= 3
    ensures r.Some? && |r.value| < 3 ==> last
  {
    var d0, d1, d2, d3 := DecodeChar(g[0]), DecodeChar(g[1]), DecodeChar(g[2]), DecodeChar(g[3]);
    if d0.None? || d1.None? then None
    else if d2.Some? && d3.Some? then
      Some([Byte0(d0.value, d1.value), Byte1(d1.value, d2.value), Byte2(d2.value, d3.value)])
    else if d2.Some? && last && g[3] == Pad then
      Some([Byte0(d0.value, d1.value), Byte1(d1.value, d2.value)])
    else if d2.None? && last && g[2] == Pad && g[3] == Pad then
      Some([Byte0(d0.value, d1.value)])
    else None
  }

  /** `base64.b64decode(s)` on its accepted inputs; None where Python raises
      `binascii.Error`. */
  function Decode(s: string): (r: Option<seq<byte>>)
    decreases |s|
  {
    if |s| == 0 then Some([])
    else if |s| < 4 then None
    else
      match DecodeGroup(s[..4], |s| == 4)
      case None => None
      case Some(head) =>
        match Decode(s[4..])
        case None => None
        case Some(tail) => Some(head + tail)
  }

  lemma DecodeFullGroup(g: string, last: bool, c0: sextet, c1: sextet, c2: sextet, c3: sextet)
    requires |g| == 4
    requires DecodeChar(g[0]) == Some(c0) && DecodeChar(g[1]) == Some(c1)
    requires DecodeChar(g[2]) == Some(c2) && DecodeChar(g[3]) == Some(c3)
    ensures DecodeGroup(g, last) == Some([Byte0(c0, c1), Byte1(c1, c2), Byte2(c2, c3)])
  {
  }

  lemma DecodeTwoByteGroup(g: string, c0: sextet, c1: sextet, c2: sextet)
    requires |g| == 4 && g[3] == Pad
    requires DecodeChar(g[0]) == Some(c0) && DecodeChar(g[1]) == Some(c1)
    requires DecodeChar(g[2]) == Some(c2)
    ensures DecodeGroup(g, true) == Some([Byte0(c0, c1), Byte1(c1, c2)])
  {
  }

  lemma DecodeOneByteGroup(g: string, c0: sextet, c1: sextet)
    requires |g| == 4 && g[2] == Pad && g[3] == Pad
    requires DecodeChar(g[0]) == Some(c0) && DecodeChar(g[1]) == Some(c1)
    ensures DecodeGroup(g, true) == Some([Byte0(c0, c1)])
  {
  }

  lemma Group3RoundTrip(b0: byte, b1: byte, b2: byte, last: bool)
    ensures DecodeGroup(Group3(b0, b1, b2), last) == Some([b0, b1, b2])
  {
    var g := Group3(b0, b1, b2);
    SextetRoundTrip(Hi(b0));
    SextetRoundTrip(Mid1(b0, b1));
    SextetRoundTrip(Mid2(b1, b2));
    SextetRoundTrip(Lo(b2));
    DecodeFullGroup(g, last, Hi(b0), Mid1(b0, b1), Mid2(b1, b2), Lo(b2));
    GroupRoundTrip(b0, b1, b2);
  }

  lemma Group2RoundTrip(b0: byte, b1: byte)
    ensures DecodeGroup(Group2(b0, b1), true) == Some([b0, b1])
  {
    var g := Group2(b0, b1);
    SextetRoundTrip(Hi(b0));
    SextetRoundTrip(Mid1(b0, b1));
    SextetRoundTrip(Mid2(b1, 0));
    DecodeTwoByteGroup(g, Hi(b0), Mid1(b0, b1), Mid2(b1, 0));
    GroupRoundTrip(b0, b1, 0);
  }

  lemma Group1RoundTrip(b0: byte)
    ensures DecodeGroup(Group1(b0), true) == Some([b0])
  {
    var g := Group1(b0);
    SextetRoundTrip(Hi(b0));
    SextetRoundTrip(Mid1(b0, 0));
    DecodeOneByteGroup(g, Hi(b0), Mid1(b0, 0));
    GroupRoundTrip(b0, 0, 0);
  }

  /** Decoding proceeds group by group. */
  lemma DecodeCons(g: string, rest: string, head: seq<byte>, tail: seq<byte>)
    requires |g| == 4
    requires DecodeGroup(g, |rest| == 0) == Some(head)
    requires Decode(rest) == Some(tail)
    ensures Decode(g + rest) == Some(head + tail)
  {
    var s := g + rest;
    assert s[..4] == g && s[4..] == rest;
  }

  lemma DecodeEncodeOne(b0: byte)
    ensures Decode(Encode([b0])) == Some([b0])
  {
    assert Encode([b0]) == Group1(b0);
    Group1RoundTrip(b0);
    DecodeLastGroup(Group1(b0), [b0]);
  }

  lemma DecodeEncodeTwo(b0: byte, b1: byte)
    ensures Decode(Encode([b0, b1])) == Some([b0, b1])
  {
    assert Encode([b0, b1]) == Group2(b0, b1);
    Group2RoundTrip(b0, b1);
    DecodeLastGroup(Group2(b0, b1), [b0, b1]);
  }

  /** A lone group decodes as the last group. */
  lemma DecodeLastGroup(g: string, head: seq<byte>)
    requires |g| == 4 && DecodeGroup(g, true) == Some(head)
    ensures Decode(g) == Some(head)
  {
    assert g[..4] == g && g[4..] == [];
    assert head + [] == head;
  }

  /** Decoding inverts encoding. */
  lemma {:induction false} DecodeEncode(data: seq<byte>)
    ensures Decode(Encode(data)) == Some(data)
    decreases |data|
  {
    if |data| == 0 {
    } else if |data| == 1 {
      assert data == [data[0]];
      DecodeEncodeOne(data[0]);
    } else if |data| == 2 {
      assert data == [data[0], data[1]];
      DecodeEncodeTwo(data[0], data[1]);
    } else {
      DecodeEncode(data[3..]);
      DecodeEncodeLong(data);
    }
  }

  /** The step for three or more bytes: a full group, then the rest. */
  lemma DecodeEncodeLong(data: seq<byte>)
    requires |data| >= 3
    requires Decode(Encode(data[3..])) == Some(data[3..])
    ensures Decode(Encode(data)) == Some(data)
  {
    var tail := data[3..];
    EncodeLong(data);
    GroupThenRest(data[0], data[1], data[2], Encode(tail), tail);
    SplitThree(data);
  }

  lemma SplitThree(data: seq<byte>)
    requires |data| >= 3
    ensures data == [data[0], data[1], data[2]] + data[3..]
  {
  }

  lemma EncodeLong(data: seq<byte>)
    requires |data| >= 3
    ensures Encode(data) == Group3(data[0], data[1], data[2]) + Encode(data[3..])
  {
  }

  lemma GroupThenRest(b0: byte, b1: byte, b2: byte, rest: string, tail: seq<byte>)
    requires Decode(rest) == Some(tail)
    ensures Decode(Group3(b0, b1, b2) + rest) == Some([b0, b1, b2] + tail)
  {
    Group3RoundTrip(b0, b1, b2, |rest| == 0);
    DecodeCons(Group3(b0, b1, b2), rest, [b0, b1, b2], tail);
  }
}

=== FILE: chat.dfy ===
/** Direct-message threads and the two ways a message enters one: the chat
    WebSocket consumer (connect, then receive) and the HTTP message-list
    endpoint. The socket checks participation only when it connects and
    never looks at whether the thread was accepted; the HTTP endpoint
    checks both on every post. */
module Chat {
  import opened Wrappers
  import opened Text

  type UserId = nat
  type ThreadId = nat

  datatype ChatMessage = ChatMessage(sender: UserId, text: string)

  datatype ChatThread = ChatThread(participants: set<UserId>, isAccepted: bool, messages: seq<ChatMessage>)

  type Threads = map<ThreadId, ChatThread>

  /** Close codes of the consumer. */
  const Unauthorized := 4401
  const Forbidden := 4403
  const ThreadMissing := 4404

  datatype ConnectReply = Closed(code: int) | Joined(group: string)

  /** The channel-layer group of a thread. */
  function GroupName(id: ThreadId): (g: string)
    ensures |g| > 5 && g[..5] == "chat_"
  {
    "chat_" + NatToString(id)
  }

  /** Different threads broadcast to different groups. */
  lemma GroupNameInjective(a: ThreadId, b: ThreadId)
    requires GroupName(a) == GroupName(b)
    ensures a == b
  {
    assert GroupName(a)[5..] == NatToString(a);
    assert GroupName(b)[5..] == NatToString(b);
    NatToStringInjective(a, b);
  }

  /** `ChatConsumer.connect`: the scope's user (`None` for the anonymous
      user) is checked before the thread is looked up. */
  function Connect(threads: Threads, user: Option<UserId>, id: ThreadId): (r: ConnectReply)
    ensures r.Joined? <==> user.Some? && id in threads && user.value in threads[id].participants
    ensures r.Joined? ==> r.group == GroupName(id)
    ensures user.None? ==> r == Closed(Unauthorized)
    ensures user.Some? && id !in threads ==> r == Closed(ThreadMissing)
    ensures user.Some? && id in threads && user.value !in threads[id].participants ==> r == Closed(Forbidden)
  {
    match user
    case None => Closed(Unauthorized)
    case Some(u) =>
      if id !in threads then Closed(ThreadMissing)
      else if u !in threads[id].participants then Closed(Forbidden)
      else Joined(GroupName(id))
  }

  /** An anonymous connection learns nothing: it is closed with the same
      code whether or not the thread exists. */
  lemma AnonymousLearnsNothing(t1: Threads, t2: Threads, id: ThreadId)
    ensures Connect(t1, None, id) == Connect(t2, None, id)
  {
  }

  /** What the consumer sends to the group after storing a message. */
  datatype Broadcast = Broadcast(group: string, thread: ThreadId, message: ChatMessage)

  /** Appends `m` to thread `id`. */
  function Append(threads: Threads, id: ThreadId, m: ChatMessage): (r: Threads)
    requires id in threads
    ensures r.Keys == threads.Keys
    ensures forall t :: t in threads && t != id ==> r[t] == threads[t]
    ensures r[id].participants == threads[id].participants && r[id].isAccepted == threads[id].isAccepted
    ensures r[id].messages == threads[id].messages + [m]
  {
    threads[id := threads[id].(messages := threads[id].messages + [m])]
  }

  /** `ChatConsumer.receive_json` on a joined connection of `sender` to
      thread `id`: the `message` field (absent reads as empty) is stripped;
      a blank message is dropped; otherwise it is stored if the thread still
      exists, and broadcast only once stored. */
  function Receive(threads: Threads, sender: UserId, id: ThreadId, message: Option<string>): (r: (Threads, Option<Broadcast>))
    ensures r.1.Some? <==> !AllSpace(message.GetOr("")) && id in threads
    ensures r.1.None? ==> r.0 == threads
    ensures r.1.Some? ==>
      && var m := ChatMessage(sender, Strip(message.value));
      && r.1.value == Broadcast(GroupName(id), id, m)
      && r.0 == Append(threads, id, m)
  {
    var text := Strip(message.GetOr(""));
    if text == "" then (threads, None)
    else if id !in threads then (threads, None)
    else
      var m := ChatMessage(sender, text);
      (Append(threads, id, m), Some(Broadcast(GroupName(id), id, m)))
  }

  /** A stored socket message is never blank at either end. */
  lemma StoredTextIsTrimmed(threads: Threads, sender: UserId, id: ThreadId, message: Option<string>)
    requires Receive(threads, sender, id, message).1.Some?
    ensures var m := Receive(threads, sender, id, message).1.value.message;
            |m.text| > 0 && !IsSpace(m.text[0]) && !IsSpace(m.text[|m.text| - 1])
  {
  }

  /** Receiving never adds or removes threads and adds at most one message,
      to the connection's own thread. */
  lemma ReceiveTouchesOneThread(threads: Threads, sender: UserId, id: ThreadId, message: Option<string>)
    ensures var t := Receive(threads, sender, id, message).0;
            && t.Keys == threads.Keys
            && (forall k :: k in threads && k != id ==> t[k] == threads[k])
            && (id in threads ==> |t[id].messages| <= |threads[id].messages| + 1)
  {
  }

  datatype PostReply =
    | ThreadNotFound          // 404: missing, or the user is not a participant
    | NotAccepted             // 400
    | InvalidMessage          // 400: the serializer refused the data
    | Created(message: ChatMessage)  // 201

  /** `MessageListView.post` (the definition in force, the second of the
      two): the serializer's verdict on the request data is `valid`, and its
      stored text is `text`. */
  function PostMessage(threads: Threads, u: UserId, id: ThreadId, text: string, valid: bool): (r: (Threads, PostReply))
    ensures r.1.Created? <==> id in threads && u in threads[id].participants && threads[id].isAccepted && valid
    ensures r.1.Created? ==> r.1.message == ChatMessage(u, text) && r.0 == Append(threads, id, r.1.message)
    ensures !r.1.Created? ==> r.0 == threads
    ensures r.1 == ThreadNotFound <==> id !in threads || u !in threads[id].participants
    ensures r.1 == NotAccepted <==> id in threads && u in threads[id].participants && !threads[id].isAccepted
  {
    if id !in threads || u !in threads[id].participants then (threads, ThreadNotFound)
    else if !threads[id].isAccepted then (threads, NotAccepted)
    else if !valid then (threads, InvalidMessage)
    else
      var m := ChatMessage(u, text);
      (Append(threads, id, m), Created(m))
  }

  /** Only a participant's post to an accepted thread is stored over HTTP. */
  lemma HttpStoresOnlyAccepted(threads: Threads, u: UserId, id: ThreadId, text: string, valid: bool)
    requires PostMessage(threads, u, id, text, valid).0 != threads
    ensures id in threads && threads[id].isAccepted && u in threads[id].participants
  {
    var r := PostMessage(threads, u, id, text, valid);
    assert r.1.Created?;
  }

  /** The socket stores a message in a thread that was never accepted, the
      same message the HTTP endpoint refuses with 400. */
  lemma SocketIgnoresAcceptance(u: UserId, id: ThreadId)
    ensures var threads := map[id := ChatThread({u}, false, [])];
            && Connect(threads, Some(u), id).Joined?
            && Receive(threads, u, id, Some("hi")).1.Some?
            && PostMessage(threads, u, id, "hi", true).1 == NotAccepted
  {
    var threads := map[id := ChatThread({u}, false, [])];
    assert !AllSpace("hi") by {
      assert !IsSpace("hi"[0]);
    }
  }
}

=== FILE: ctfviews.dfy ===
/** Two CTF detectors that sit in front of ordinary behaviour: the role
    endpoint, which never changes a role but awards the privilege-escalation
    bug for a privileged role name, and the post-image endpoint, which
    awards the private-post bug instead of serving someone else's private
    image. */
module CtfViews {
  import opened Wrappers
  import opened Text
  import opened Scoring
  import opened Social
  import Serializers

  const EscalationTitle := "Privilege Escalation via API Endpoint"
  const EscalationPoints := 50
  const PrivateViewTitle := "Private Post Viewing"
  const PrivateViewPoints := 100

  /** The role names that count as an escalation attempt. */
  const PrivilegedRoles: set<string> := {"admin", "administrator", "moderator", "staff", "superuser"}

  datatype RoleReply =
    | InvalidRole                                                   // 400
    | EscalationDetected(attemptedRole: string, actualRole: string, award: Award)  // 200

  /** `SetUserRoleView.post`: the submitted role (absent reads as empty) is
      lower-cased and checked against the privileged names. ASCII
      lower-casing decides membership exactly as `str.lower()` does, since
      every privileged name is plain ASCII without a `k` or an `i` that a
      non-ASCII letter could lower to. */
  function SetRole(l: Ledger, u: UserId, role: Option<string>): (r: (Ledger, RoleReply))
    requires u in l.accounts
    ensures r.1 == InvalidRole <==> Lower(role.GetOr("")) !in PrivilegedRoles
    ensures r.1 == InvalidRole ==> r.0 == l
    ensures r.1.EscalationDetected? ==>
      && r.1.actualRole == "user"
      && r.1.attemptedRole == Lower(role.value)
      && var step := TriggerBugFound(l, u, EscalationTitle, EscalationPoints);
         r.0 == step.ledger && r.1.award == step.award
  {
    var newRole := Lower(role.GetOr(""));
    if newRole !in PrivilegedRoles then (l, InvalidRole)
    else
      var step := TriggerBugFound(l, u, EscalationTitle, EscalationPoints);
      (step.ledger, EscalationDetected(newRole, "user", step.award))
  }

  /** Case does not matter: "ADMIN" is an escalation attempt. */
  lemma UpperCaseRoleDetected(l: Ledger, u: UserId)
    requires u in l.accounts
    ensures SetRole(l, u, Some("ADMIN")).1.EscalationDetected?
    ensures SetRole(l, u, Some("ADMIN")).1.attemptedRole == "admin"
  {
    assert Lower("ADMIN") == "admin";
  }

  /** No request to the role endpoint ever reports a role other than
      "user", and a second attempt awards nothing more. */
  lemma RoleNeverChanges(l: Ledger, u: UserId, role: Option<string>, again: Option<string>)
    requires u in l.accounts
    ensures var (l1, r1) := SetRole(l, u, role);
            && (r1.EscalationDetected? ==> r1.actualRole == "user")
            && u in l1.accounts
            && var (l2, r2) := SetRole(l1, u, again);
               r1.EscalationDetected? && r2.EscalationDetected? ==> !r2.award.success && l2 == l1
  {
  }

  /** The content type from the lower-cased image path. */
  function ContentType(path: string): (t: string)
    ensures t in Serializers.AllowedTypes
    ensures EndsWith(Lower(path), ".png") ==> t == "image/png"
    ensures !EndsWith(Lower(path), ".png") && EndsWith(Lower(path), ".gif") ==> t == "image/gif"
    ensures !EndsWith(Lower(path), ".png") && !EndsWith(Lower(path), ".gif") ==> t == "image/jpeg"
  {
    var p := Lower(path);
    if EndsWith(p, ".png") then "image/png"
    else if EndsWith(p, ".gif") then "image/gif"
    else "image/jpeg"
  }

  lemma LowerIdempotent(s: string)
    ensures Lower(Lower(s)) == Lower(s)
  {
  }

  /** The type depends only on the lower-cased path. */
  lemma ContentTypeIgnoresCase(path: string)
    ensures ContentType(Lower(path)) == ContentType(path)
  {
    LowerIdempotent(path);
  }

  datatype ImageReply =
    | ServerError                       // 500
    | FileMissing                       // 404
    | PrivacyBug(award: Award)          // 200, no image
    | Image(data: seq<int>, contentType: string)

  /** `serve_post_image`: `files` maps a stored image path to its bytes. A
      missing post raises inside the catch-all handler and is answered 500;
      a missing file is answered 404. */
  function ServeImage(s: Store, l: Ledger, files: map<string, seq<int>>, u: UserId, p: PostId): (r: (Ledger, ImageReply))
    requires u in l.accounts
    ensures p !in s.posts ==> r == (l, ServerError)
    ensures p in s.posts && s.posts[p].isPrivate && s.posts[p].owner != u ==>
      && r.1.PrivacyBug?
      && var step := TriggerBugFound(l, u, PrivateViewTitle, PrivateViewPoints);
         r == (step.ledger, PrivacyBug(step.award))
    ensures r.1.Image? ==>
      && p in s.posts && (!s.posts[p].isPrivate || s.posts[p].owner == u)
      && s.posts[p].imagePath in files
      && r == (l, Image(files[s.posts[p].imagePath], ContentType(s.posts[p].imagePath)))
    ensures p in s.posts && (!s.posts[p].isPrivate || s.posts[p].owner == u) ==>
      (r.1.Image? <==> s.posts[p].imagePath in files)
    ensures p in s.posts && (!s.posts[p].isPrivate || s.posts[p].owner == u) && s.posts[p].imagePath !in files ==>
      r == (l, FileMissing)
    ensures r.1 == FileMissing ==> r.0 == l
  {
    if p !in s.posts then (l, ServerError)
    else
      var post := s.posts[p];
      if post.isPrivate && post.owner != u then
        var step := TriggerBugFound(l, u, PrivateViewTitle, PrivateViewPoints);
        (step.ledger, PrivacyBug(step.award))
      else if post.imagePath !in files then (l, FileMissing)
      else (l, Image(files[post.imagePath], ContentType(post.imagePath)))
  }

  /** Someone else's private image is never served, whatever is stored. */
  lemma PrivateImageNeverServed(s: Store, l: Ledger, files: map<string, seq<int>>, u: UserId, p: PostId)
    requires u in l.accounts && p in s.posts && s.posts[p].isPrivate && s.posts[p].owner != u
    ensures !ServeImage(s, l, files, u, p).1.Image?
  {
  }
}

=== FILE: login.dfy ===
/** The login view: credential check, the brute-force detector over failed
    attempts per (client IP, username), and the claiming of pending bug
    discoveries on a successful login. Authentication itself (password
    hashing) is a parameter: the user `authenticate` returns, if any. */
module Login {
  import opened Wrappers
  import opened Text
  import opened Scoring
  import opened Window
  import opened Pending

  const FailureWindow: int := 300
  const FailureThreshold: nat := 10
  const RateLimitTitle := "Missing Rate Limiting in Login"
  const RateLimitPoints: int := 75
  const Fallback := "127.0.0.1"

  /** The part of a string before its first comma: `s.split(',')[0]`. */
  function FirstField(s: string): (r: string)
    ensures |r| <= |s| && r == s[..|r|]
    ensures ',' !in r
    ensures |r| < |s| ==> s[|r|] == ','
  {
    if |s| == 0 || s[0] == ',' then ""
    else
      var rest := FirstField(s[1..]);
      assert ([s[0]] + rest)[1..] == rest;
      [s[0]] + rest
  }

  /** `get_client_ip`: the first entry of X-Forwarded-For when that header
      is present and non-empty, else REMOTE_ADDR; an empty result falls
      back to the loopback address. */
  function ClientIp(forwardedFor: Option<string>, remoteAddr: Option<string>): (r: string)
    ensures r != ""
    ensures forwardedFor.Some? && forwardedFor.value != "" ==>
      r == (if FirstField(forwardedFor.value) == "" then Fallback else FirstField(forwardedFor.value))
    ensures (forwardedFor.None? || forwardedFor.value == "") ==>
      r == (if remoteAddr.GetOr("") == "" then Fallback else remoteAddr.value)
  {
    var ip := if forwardedFor.Some? && forwardedFor.value != "" then FirstField(forwardedFor.value)
              else remoteAddr.GetOr("");
    if ip == "" then Fallback else ip
  }

  /** The address is the fallback or a comma-free prefix of one of the two
      request values. */
  lemma ClientIpIsFirstHop(forwardedFor: Option<string>, remoteAddr: Option<string>)
    ensures var r := ClientIp(forwardedFor, remoteAddr);
            || r == Fallback
            || (forwardedFor.Some? && StartsWith(forwardedFor.value, r) && ',' !in r)
            || remoteAddr == Some(r)
  {
  }

  /** A forwarded-for value starting with a comma yields the fallback even
      when REMOTE_ADDR is known. */
  lemma LeadingCommaFallsBack()
    ensures ClientIp(Some(",10.0.0.1"), Some("192.168.1.5")) == Fallback
  {
  }

  function AttemptsKey(ip: string, username: string): string {
    "login_attempts_" + ip + "_" + username
  }

  function RateLimitKey(ip: string, username: string): string {
    "rate_limit_bug_pending_" + ip + "_" + username
  }

  /** What the view reads and writes: the cached failure lists, the cached
      rate-limit backups, the requester's session and the ledger. */
  datatype LoginState = LoginState(
    failures: map<string, seq<int>>,
    rateLimitCache: set<string>,
    session: Session,
    ledger: Ledger)

  function Failures(st: LoginState, key: string): seq<int> {
    if key in st.failures then st.failures[key] else []
  }

  datatype Claim = Claim(title: string, award: Award)

  datatype LoginReply =
    | MissingCredentials                                  // 400
    | Failed(failedAttempts: nat, attemptsRemaining: nat) // 401
    | RateLimitDetected(failedAttempts: nat)              // 401
    | LoggedIn(user: UserId, claim: Option<Claim>)        // 200

  predicate Blank(v: Option<string>) {
    v.None? || v.value == ""
  }

  /** The recent failures for the key, before this attempt is counted. */
  function Recent(st: LoginState, ip: string, username: string, now: int): seq<int> {
    Prune(Failures(st, AttemptsKey(ip, username)), now, FailureWindow)
  }

  /** A failed attempt. */
  function Fail(st: LoginState, ip: string, username: string, now: int): (r: (LoginState, LoginReply))
    ensures var key := AttemptsKey(ip, username);
            var n := |Recent(st, ip, username, now)| + 1;
            && r.0.ledger == st.ledger
            && r.0.session.pendingCtf == st.session.pendingCtf
            && (forall k :: k != key ==> (k in r.0.failures <==> k in st.failures))
            && (forall k :: k in st.failures && k != key ==> r.0.failures[k] == st.failures[k])
            && (n < FailureThreshold ==>
                  && r.1 == Failed(n, FailureThreshold - n)
                  && key in r.0.failures
                  && r.0.failures[key] == Recent(st, ip, username, now) + [now]
                  && r.0.session == st.session && r.0.rateLimitCache == st.rateLimitCache)
            && (n >= FailureThreshold ==>
                  && r.1 == RateLimitDetected(n)
                  && key !in r.0.failures
                  && r.0.session.pendingBugs == AddOnce(st.session.pendingBugs, RateLimitTitle)
                  && r.0.rateLimitCache == st.rateLimitCache + {RateLimitKey(ip, username)})
  {
    var key := AttemptsKey(ip, username);
    var attempts := Record(Failures(st, key), now, FailureWindow);
    var failures := st.failures[key := attempts];
    if |attempts| >= FailureThreshold then
      var session := st.session.(pendingBugs := AddOnce(st.session.pendingBugs, RateLimitTitle));
      (LoginState(failures - {key}, st.rateLimitCache + {RateLimitKey(ip, username)}, session, st.ledger),
       RateLimitDetected(|attempts|))
    else
      (st.(failures := failures), Failed(|attempts|, Max0(FailureThreshold - |attempts|)))
  }

  function Max0(x: int): nat {
    if x < 0 then 0 else x
  }

  /** A successful login by `u`. */
  function Succeed(st: LoginState, ip: string, username: string, u: UserId): (r: (LoginState, LoginReply))
    requires u in st.ledger.accounts
    ensures r.0.failures == st.failures - {AttemptsKey(ip, username)}
    ensures r.1.LoggedIn? && r.1.user == u
    ensures var rateLimit := RateLimitTitle in st.session.pendingBugs
                             || RateLimitKey(ip, username) in st.rateLimitCache;
            && (rateLimit ==>
                  && r.1.claim.Some? && r.1.claim.value.title == RateLimitTitle
                  && r.0.session.pendingBugs == RemoveAll(st.session.pendingBugs, RateLimitTitle)
                  && r.0.rateLimitCache == st.rateLimitCache - {RateLimitKey(ip, username)}
                  && r.0.session.pendingCtf == st.session.pendingCtf)
            && (!rateLimit ==>
                  && r.0.session.pendingBugs == st.session.pendingBugs
                  && r.0.rateLimitCache == st.rateLimitCache
                  && (match FirstPending(st.session.pendingCtf)
                      case None => r.1.claim.None? && r.0.session == st.session && r.0.ledger == st.ledger
                      case Some(t) => r.1.claim.Some? && r.1.claim.value.title == t
                                      && r.0.session.pendingCtf == RemoveAll(st.session.pendingCtf, t)))
    ensures r.1.claim.Some? ==>
      var step := TriggerBugFound(st.ledger, u, r.1.claim.value.title,
                                  if r.1.claim.value.title == RateLimitTitle then RateLimitPoints else DiscoveryPoints);
      r.0.ledger == step.ledger && r.1.claim.value.award == step.award
  {
    var failures := st.failures - {AttemptsKey(ip, username)};
    var rlKey := RateLimitKey(ip, username);
    if RateLimitTitle in st.session.pendingBugs || rlKey in st.rateLimitCache then
      var step := TriggerBugFound(st.ledger, u, RateLimitTitle, RateLimitPoints);
      var session := st.session.(pendingBugs := RemoveAll(st.session.pendingBugs, RateLimitTitle));
      (LoginState(failures, st.rateLimitCache - {rlKey}, session, step.ledger),
       LoggedIn(u, Some(Claim(RateLimitTitle, step.award))))
    else
      match FirstPending(st.session.pendingCtf)
      case None => (st.(failures := failures), LoggedIn(u, None))
      case Some(t) =>
        var step := TriggerBugFound(st.ledger, u, t, DiscoveryPoints);
        var session := st.session.(pendingCtf := RemoveAll(st.session.pendingCtf, t));
        (LoginState(failures, st.rateLimitCache, session, step.ledger), LoggedIn(u, Some(Claim(t, step.award))))
  }

  /** `LoginView.post`: `authenticated` is the user `authenticate` returns
      for the submitted credentials, if any. */
  function Submit(st: LoginState, username: Option<string>, password: Option<string>,
                  ip: string, authenticated: Option<UserId>, now: int): (r: (LoginState, LoginReply))
    requires authenticated.Some? ==> authenticated.value in st.ledger.accounts
    ensures Blank(username) || Blank(password) ==> r == (st, MissingCredentials)
    ensures !Blank(username) && !Blank(password) && authenticated.None? ==>
      r == Fail(st, ip, username.value, now)
    ensures !Blank(username) && !Blank(password) && authenticated.Some? ==>
      r == Succeed(st, ip, username.value, authenticated.value)
  {
    if Blank(username) || Blank(password) then (st, MissingCredentials)
    else match authenticated
      case None => Fail(st, ip, username.value, now)
      case Some(u) => Succeed(st, ip, username.value, u)
  }

  /** An ordinary failure reports between one and nine attempts left, and
      the two counts add up to the threshold. */
  lemma AttemptsRemainingInRange(st: LoginState, ip: string, username: string, now: int)
    requires Fail(st, ip, username, now).1.Failed?
    ensures var reply := Fail(st, ip, username, now).1;
            && 1 <= reply.attemptsRemaining <= 9
            && reply.failedAttempts + reply.attemptsRemaining == FailureThreshold
  {
  }

  /** Every failure time kept for the key is younger than the window, the
      newest being the attempt just made. */
  lemma StoredFailuresInWindow(st: LoginState, ip: string, username: string, now: int)
    requires Fail(st, ip, username, now).1.Failed?
    ensures var ts := Fail(st, ip, username, now).0.failures[AttemptsKey(ip, username)];
            && ts[|ts| - 1] == now
            && forall k :: 0 <= k < |ts| ==> now - ts[k] < FailureWindow
  {
  }

  /** The detecting failure deletes the counter: the next failure for the
      same (IP, username) counts one. */
  lemma DetectionResetsCounter(st: LoginState, ip: string, username: string, now: int, later: int)
    requires Fail(st, ip, username, now).1.RateLimitDetected?
    ensures Fail(Fail(st, ip, username, now).0, ip, username, later).1 == Failed(1, 9)
  {
  }

  /** Nine failures still in the window: the next one is detected. */
  lemma TenthFailureDetected(st: LoginState, ip: string, username: string, now: int)
    requires var ts := Failures(st, AttemptsKey(ip, username));
             |ts| == 9 && forall k :: 0 <= k < |ts| ==> now - ts[k] < FailureWindow
    ensures Fail(st, ip, username, now).1 == RateLimitDetected(10)
  {
  }

  /** The rate-limit title is pending at most once, however many times the
      detector fires, and the other session list is untouched. */
  lemma {:induction false} DetectionPendsOnce(st: LoginState, ip: string, username: string, nows: seq<int>)
    requires NoDuplicates(st.session.pendingBugs)
    ensures var t := FailMany(st, ip, username, nows);
            && NoDuplicates(t.session.pendingBugs)
            && t.session.pendingCtf == st.session.pendingCtf
            && t.ledger == st.ledger
    decreases |nows|
  {
    if |nows| > 0 {
      DetectionPendsOnce(st, ip, username, nows[..|nows| - 1]);
    }
  }

  /** Failed attempts at the given times, one after another. */
  function FailMany(st: LoginState, ip: string, username: string, nows: seq<int>): LoginState
    decreases |nows|
  {
    if |nows| == 0 then st
    else Fail(FailMany(st, ip, username, nows[..|nows| - 1]), ip, username, nows[|nows| - 1]).0
  }

  /** Once claimed, the rate-limit bug is no longer pending: the next login
      claims nothing for it. */
  lemma RateLimitClaimedOnce(st: LoginState, ip: string, username: string, u: UserId)
    requires u in st.ledger.accounts
    requires RateLimitTitle in st.session.pendingBugs
    ensures var s1 := Succeed(st, ip, username, u).0;
            && u in s1.ledger.accounts
            && var r2 := Succeed(s1, ip, username, u).1;
               r2.claim.None? || r2.claim.value.title != RateLimitTitle
  {
  }
}

=== FILE: pending.dfy ===
/** Bug discoveries made while logged out. The password-reset views record
    a discovery in the session's list of pending CTF discoveries (once per
    title) when the requester is anonymous, and award it at once otherwise;
    a later successful login claims the first pending title in a fixed
    priority order. The session is reduced to the titles of its entries. */
module Pending {
  import opened Wrappers
  import opened Text
  import opened Scoring

  /** The session's two discovery lists, as titles. */
  datatype Session = Session(pendingBugs: seq<string>, pendingCtf: seq<string>)

  ghost predicate NoDuplicates(s: seq<string>) {
    forall i, j :: 0 <= i < j < |s| ==> s[i] != s[j]
  }

  /** Append `t` unless an entry with that title is already there. */
  function AddOnce(s: seq<string>, t: string): (r: seq<string>)
    ensures t in r
    ensures forall x :: x in r <==> x in s || x == t
    ensures t in s ==> r == s
    ensures NoDuplicates(s) ==> NoDuplicates(r)
  {
    if t in s then s else s + [t]
  }

  /** Drop every entry with title `t`, keeping the order of the rest. */
  function RemoveAll(s: seq<string>, t: string): (r: seq<string>)
    ensures t !in r
    ensures forall x :: x in r <==> x in s && x != t
    ensures t !in s ==> r == s
    ensures NoDuplicates(s) ==> NoDuplicates(r)
    ensures |r| <= |s|
  {
    if |s| == 0 then []
    else if s[0] == t then RemoveAll(s[1..], t)
    else
      assert NoDuplicates(s) ==> NoDuplicates(s[1..]);
      var rest := RemoveAll(s[1..], t);
      assert NoDuplicates(s) ==> NoDuplicates([s[0]] + rest) by {
        if NoDuplicates(s) {
          assert s[0] !in s[1..];
          var r := [s[0]] + rest;
          forall i, j | 0 <= i < j < |r|
            ensures r[i] != r[j]
          {
            assert r[j] == rest[j - 1] && r[j] in rest;
            if i > 0 {
              assert r[i] == rest[i - 1];
            }
          }
        }
      }
      [s[0]] + rest
  }

  const UidFormat := "Invalid Password Reset UID Format"
  const TokenFormat := "Invalid Password Reset Token Format"
  const Malformed := "Malformed Password Reset Token"
  const InvalidBase64 := "Invalid Base64 in Password Reset Token"
  const Predictable := "Predictable Password Reset Token"
  const EmptyToken := "Empty Password Reset Token"

  const DiscoveryPoints := 100

  /** The titles a login claims, in the order it looks for them. */
  const Priority: seq<string> := [UidFormat, TokenFormat, Malformed, InvalidBase64, Predictable]

  /** The first title of `order` that is pending. */
  function FirstIn(order: seq<string>, pending: seq<string>): (r: Option<nat>)
    ensures r.Some? ==> r.value < |order| && order[r.value] in pending
                        && forall k :: 0 <= k < r.value ==> order[k] !in pending
    ensures r.None? <==> forall k :: 0 <= k < |order| ==> order[k] !in pending
  {
    if |order| == 0 then None
    else if order[0] in pending then Some(0)
    else match FirstIn(order[1..], pending)
         case None => None
         case Some(k) => Some(k + 1)
  }

  /** The title a successful login claims, if any. */
  function FirstPending(pending: seq<string>): (r: Option<string>)
    ensures r.Some? ==> r.value in Priority && r.value in pending
    ensures r.None? <==> forall t :: t in Priority ==> t !in pending
  {
    match FirstIn(Priority, pending)
    case None => None
    case Some(k) => Some(Priority[k])
  }

  /** No pending entry is claimed ahead of one listed earlier. */
  lemma FirstPendingRespectsPriority(pending: seq<string>, j: nat)
    requires j < |Priority| && FirstPending(pending) == Some(Priority[j])
    ensures forall i :: 0 <= i < j ==> Priority[i] !in pending
  {
    var k := FirstIn(Priority, pending).value;
    assert Priority[k] == Priority[j];
    // the five titles are distinct, so the claimed index is j itself
    assert k == j;
  }

  /** The empty-token title is recorded by the verify view but is not in
      the list a login looks through, so no login claims it. */
  lemma EmptyTokenNeverClaimed(pending: seq<string>)
    ensures FirstPending(pending) != Some(EmptyToken)
  {
  }

  datatype Outcome = Awarded(award: Award) | Recorded

  /** A discovery by the requester: an authenticated requester is awarded
      `DiscoveryPoints` at once; an anonymous one gets the title added to
      the session's pending list unless already there. */
  function Discover(l: Ledger, s: Session, requester: Option<UserId>, title: string): (r: (Ledger, Session, Outcome))
    requires requester.Some? ==> requester.value in l.accounts
    ensures requester.None? ==>
      && r.0 == l && r.2 == Recorded
      && r.1 == s.(pendingCtf := AddOnce(s.pendingCtf, title))
    ensures requester.Some? ==>
      && r.1 == s
      && var step := TriggerBugFound(l, requester.value, title, DiscoveryPoints);
         r.0 == step.ledger && r.2 == Awarded(step.award)
  {
    match requester
    case None => (l, s.(pendingCtf := AddOnce(s.pendingCtf, title)), Recorded)
    case Some(u) =>
      var step := TriggerBugFound(l, u, title, DiscoveryPoints);
      (step.ledger, s, Awarded(step.award))
  }

  /** Repeating an anonymous discovery changes nothing further. */
  lemma AnonymousDiscoveryIdempotent(l: Ledger, s: Session, title: string)
    ensures var (l1, s1, _) := Discover(l, s, None, title);
            Discover(l1, s1, None, title) == (l1, s1, Recorded)
  {
  }
}

=== FILE: ranking.dfy ===
/** The leaderboard's default ordering: total points descending, then bugs
    solved descending. Rows equal on both keys may come in any order. */
module Ranking {
  import opened Scoring

  datatype Row = Row(user: UserId, standing: Standing)

  /** `a` may be listed before `b`. */
  predicate NotBelow(a: Standing, b: Standing) {
    || a.totalPoints > b.totalPoints
    || (a.totalPoints == b.totalPoints && a.totalBugsSolved >= b.totalBugsSolved)
  }

  /** The order is total and transitive, so every set of rows can be
      ranked. */
  lemma NotBelowIsTotalPreorder(a: Standing, b: Standing, c: Standing)
    ensures NotBelow(a, a)
    ensures NotBelow(a, b) || NotBelow(b, a)
    ensures NotBelow(a, b) && NotBelow(b, c) ==> NotBelow(a, c)
  {
  }

  ghost predicate Ranked(s: seq<Row>) {
    forall i, j :: 0 <= i < j < |s| ==> NotBelow(s[i].standing, s[j].standing)
  }

  /** Places one row into an already ranked list. */
  function Insert(r: Row, s: seq<Row>): (t: seq<Row>)
    requires Ranked(s)
    ensures Ranked(t)
    ensures multiset(t) == multiset(s) + multiset{r}
    ensures |t| == |s| + 1
  {
    if |s| == 0 || NotBelow(r.standing, s[0].standing) then
      [r] + s
    else
      var rest := Insert(r, s[1..]);
      assert s == [s[0]] + s[1..];
      HeadAboveAll(s[0], r, s[1..], rest);
      [s[0]] + rest
  }

  lemma HeadAboveAll(h: Row, r: Row, tail: seq<Row>, rest: seq<Row>)
    requires Ranked([h] + tail)
    requires !NotBelow(r.standing, h.standing)
    requires multiset(rest) == multiset(tail) + multiset{r}
    requires Ranked(rest)
    ensures Ranked([h] + rest)
  {
    forall j | 0 <= j < |rest|
      ensures NotBelow(h.standing, rest[j].standing)
    {
      assert rest[j] in multiset(rest);
      if rest[j] != r {
        assert rest[j] in multiset(tail);
        var k :| 0 <= k < |tail| && tail[k] == rest[j];
        assert ([h] + tail)[0] == h && ([h] + tail)[k + 1] == tail[k];
        assert NotBelow(([h] + tail)[0].standing, ([h] + tail)[k + 1].standing);
      }
    }
    var t := [h] + rest;
    forall i, j | 0 <= i < j < |t|
      ensures NotBelow(t[i].standing, t[j].standing)
    {
      if i > 0 {
        assert t[i] == rest[i - 1] && t[j] == rest[j - 1];
      } else {
        assert t[j] == rest[j - 1];
      }
    }
  }

  /** The rows of the leaderboard in display order. */
  function Rank(rows: seq<Row>): (t: seq<Row>)
    ensures Ranked(t)
    ensures multiset(t) == multiset(rows)
  {
    if |rows| == 0 then []
    else
      assert rows == [rows[0]] + rows[1..];
      Insert(rows[0], Rank(rows[1..]))
  }
}

=== FILE: resettoken.dfy ===
/** The password-reset flow and its deliberately predictable token. A reset
    link carries `uid = b64(username)` and `token = uuid + "-" + b64(username)`;
    the verify view classifies malformed tokens, splits at the last dash,
    decodes the suffix and compares the two usernames, recording a bug
    discovery at each failure; the reset view applies the same checks
    before it sets the new password. Usernames are the bytes of their UTF-8
    encoding. */
module ResetToken {
  import opened Wrappers
  import opened Text
  import opened Scoring
  import opened Base64
  import opened Pending

  const MinPasswordLength := 6

  type Username = seq<byte>

  /** The classes of the verify view's first token check. */
  datatype TokenClass = EmptyToken | MalformedToken | InvalidFormat | WellFormed

  /** The verify view's token check, in the source's branch order; the
      `token == '---'` branch is subsumed by the starts-with-dash test. */
  function ClassifyToken(token: string): (c: TokenClass)
    ensures c == EmptyToken <==> token == ""
    ensures c == MalformedToken <==> token != "" && (token[0] == '-' || token[|token| - 1] == '-')
    ensures c == InvalidFormat <==> token != "" && '-' !in token
    ensures c == WellFormed <==>
      token != "" && '-' in token && token[0] != '-' && token[|token| - 1] != '-'
  {
    if token == "" then EmptyToken
    else if token[0] == '-' then MalformedToken
    else if token[|token| - 1] == '-' then MalformedToken
    else if token == "---" then MalformedToken
    else if '-' !in token then InvalidFormat
    else WellFormed
  }

  /** `---` is malformed (through the starts-with-dash test). */
  lemma TripleDashIsMalformed()
    ensures ClassifyToken("---") == MalformedToken
  {
  }

  /** The bug title recorded for each rejected class. */
  function ClassTitle(c: TokenClass): string
    requires c != WellFormed
  {
    match c
    case EmptyToken => Pending.EmptyToken
    case MalformedToken => Malformed
    case InvalidFormat => TokenFormat
  }

  /** The position of the last occurrence of `c` in `s`. */
  function LastIndex(s: string, c: char): (r: Option<nat>)
    ensures r.None? <==> c !in s
    ensures r.Some? ==> r.value < |s| && s[r.value] == c && c !in s[r.value + 1..]
  {
    if |s| == 0 then None
    else if s[|s| - 1] == c then Some(|s| - 1)
    else
      var r := LastIndex(s[..|s| - 1], c);
      assert r.Some? ==> s[r.value + 1..] == s[..|s| - 1][r.value + 1..] + [s[|s| - 1]];
      r
  }

  /** `s.rsplit(sep, 1)`: the whole string when `sep` does not occur, else
      the parts before and after its last occurrence. */
  function RSplitOnce(s: string, sep: char): (r: seq<string>)
    ensures |r| == 1 <==> sep !in s
    ensures |r| == 1 ==> r[0] == s
    ensures |r| == 2 ==> r[0] + [sep] + r[1] == s && sep !in r[1]
    ensures 1 <= |r| <= 2
  {
    match LastIndex(s, sep)
    case None => [s]
    case Some(i) =>
      assert s == s[..i] + [sep] + s[i + 1..];
      [s[..i], s[i + 1..]]
  }

  /** Splitting a join whose right side has no separator gives back the
      two sides. */
  lemma RSplitJoin(a: string, b: string, sep: char)
    requires sep !in b
    ensures RSplitOnce(a + [sep] + b, sep) == [a, b]
  {
    var s := a + [sep] + b;
    var i := |a|;
    assert s[i] == sep && s[i + 1..] == b && s[..i] == a;
    // the last separator is the joining one: everything after it is b
    assert forall k :: i < k < |s| ==> s[k] == b[k - i - 1] && b[k - i - 1] in b;
    var j := LastIndex(s, sep).value;
    assert forall k :: j < k < |s| ==> s[k] == s[j + 1..][k - j - 1];
    assert j == i;
  }

  /** A token that passes the class check always splits into two non-empty
      parts, so the view's "not two parts" branch cannot fire. */
  lemma WellFormedSplitsInTwo(token: string)
    requires ClassifyToken(token) == WellFormed
    ensures var parts := RSplitOnce(token, '-');
            |parts| == 2 && parts[0] != "" && parts[1] != ""
  {
    var parts := RSplitOnce(token, '-');
    assert parts[0] + ['-'] + parts[1] == token;
    assert token[0] == (parts[0] + ['-'] + parts[1])[0];
    assert token[|token| - 1] == (parts[0] + ['-'] + parts[1])[|token| - 1];
  }

  /** What the verify view answers. */
  datatype VerifyReply = Flagged(title: string, outcome: Outcome) | Valid

  /** `PasswordResetVerifyView.get`. `requester` is the logged-in user, if
      any. */
  function Verify(l: Ledger, s: Session, requester: Option<UserId>, uid: string, token: string): (r: (Ledger, Session, VerifyReply))
    requires requester.Some? ==> requester.value in l.accounts
    ensures r.2 == Valid <==>
      && Decode(uid).Some? && ClassifyToken(token) == WellFormed
      && Decode(RSplitOnce(token, '-')[1]) == Decode(uid)
    ensures r.2 == Valid ==> r.0 == l && r.1 == s
    ensures r.2.Flagged? ==> (r.0, r.1, r.2.outcome) == Discover(l, s, requester, r.2.title)
    ensures Decode(uid).None? ==> r.2.Flagged? && r.2.title == UidFormat
    ensures Decode(uid).Some? && ClassifyToken(token) != WellFormed ==>
      r.2.Flagged? && r.2.title == ClassTitle(ClassifyToken(token))
    ensures Decode(uid).Some? && ClassifyToken(token) == WellFormed
            && Decode(RSplitOnce(token, '-')[1]).None? ==>
      r.2.Flagged? && r.2.title == InvalidBase64
    ensures Decode(uid).Some? && ClassifyToken(token) == WellFormed
            && Decode(RSplitOnce(token, '-')[1]).Some?
            && Decode(RSplitOnce(token, '-')[1]) != Decode(uid) ==>
      r.2.Flagged? && r.2.title == Predictable
  {
    var uidName := Decode(uid);
    if uidName.None? then Flag(l, s, requester, UidFormat)
    else
      var c := ClassifyToken(token);
      if c != WellFormed then Flag(l, s, requester, ClassTitle(c))
      else
        WellFormedSplitsInTwo(token);
        var parts := RSplitOnce(token, '-');
        match Decode(parts[1])
        case None => Flag(l, s, requester, InvalidBase64)
        case Some(tokenName) =>
          if tokenName != uidName.value then Flag(l, s, requester, Predictable)
          else (l, s, Valid)
  }

  function Flag(l: Ledger, s: Session, requester: Option<UserId>, title: string): (r: (Ledger, Session, VerifyReply))
    requires requester.Some? ==> requester.value in l.accounts
    ensures r.2.Flagged? && r.2.title == title
    ensures (r.0, r.1, r.2.outcome) == Discover(l, s, requester, title)
  {
    var (l', s', o) := Discover(l, s, requester, title);
    (l', s', Flagged(title, o))
  }

  /** The text of a `uuid4()`: 32 lower-case hex digits in groups 8-4-4-4-12
      joined by dashes. */
  predicate IsUuidText(u: string) {
    && |u| == 36
    && forall k :: 0 <= k < |u| ==>
         if k == 8 || k == 13 || k == 18 || k == 23 then u[k] == '-'
         else IsDigit(u[k]) || 'a' <= u[k] <= 'f'
  }

  /** Registered users: email to username, username to current password. */
  datatype Directory = Directory(byEmail: map<string, Username>, passwords: map<Username, string>)

  datatype ForgotReply = EmailRequired | NoSuchEmail | LinkIssued(uid: string, token: string)

  /** `ForgotPasswordView.post`; `uuid` is the fresh `uuid4()` text. The
      issued link is what the view prints; its body only acknowledges. */
  function Forgot(d: Directory, email: Option<string>, uuid: string): (r: ForgotReply)
    ensures email.None? || email.value == "" ==> r == EmailRequired
    ensures email.Some? && email.value != "" && email.value !in d.byEmail ==> r == NoSuchEmail
    ensures email.Some? && email.value != "" && email.value in d.byEmail ==> r.LinkIssued?
    ensures r.LinkIssued? ==>
      && email.Some? && email.value in d.byEmail
      && Decode(r.uid) == Some(d.byEmail[email.value])
      && RSplitOnce(r.token, '-') == [uuid, r.uid]
  {
    if email.None? || email.value == "" then EmailRequired
    else if email.value !in d.byEmail then NoSuchEmail
    else
      var e := Encode(d.byEmail[email.value]);
      DecodeEncode(d.byEmail[email.value]);
      RSplitJoin(uuid, e, '-');
      LinkIssued(e, uuid + "-" + e)
  }

  /** The link issued for a user with a non-empty username passes the
      verify view, because the base64 alphabet has no `-` and decoding
      inverts encoding. */
  lemma IssuedLinkVerifies(d: Directory, email: string, uuid: string, l: Ledger, s: Session, requester: Option<UserId>)
    requires IsUuidText(uuid) && email != "" && email in d.byEmail && d.byEmail[email] != []
    requires requester.Some? ==> requester.value in l.accounts
    ensures var link := Forgot(d, Some(email), uuid);
            link.LinkIssued? && Verify(l, s, requester, link.uid, link.token) == (l, s, Valid)
  {
    var link := Forgot(d, Some(email), uuid);
    var e := Encode(d.byEmail[email]);
    assert link.uid == e && link.token == uuid + "-" + e;
    IssuedTokenWellFormed(uuid, e);
  }

  /** A uuid, a dash and a non-empty dash-free suffix make a well-formed
      token. */
  lemma IssuedTokenWellFormed(uuid: string, e: string)
    requires IsUuidText(uuid) && |e| > 0 && '-' !in e
    ensures ClassifyToken(uuid + "-" + e) == WellFormed
  {
    var token := uuid + "-" + e;
    assert token[0] == uuid[0];
    assert token[|token| - 1] == e[|e| - 1];
    assert e[|e| - 1] in e;
    assert token[8] == '-';
  }

  /** For the empty username the token ends in its joining dash, so the
      verify view calls the issued link malformed. */
  lemma EmptyUsernameLinkIsMalformed(d: Directory, email: string, uuid: string, l: Ledger, s: Session, requester: Option<UserId>)
    requires IsUuidText(uuid) && email != "" && email in d.byEmail && d.byEmail[email] == []
    requires requester.Some? ==> requester.value in l.accounts
    ensures var link := Forgot(d, Some(email), uuid);
            link.LinkIssued? && Verify(l, s, requester, link.uid, link.token).2.title == Malformed
  {
    var token := uuid + "-" + Encode([]);
    assert token[|token| - 1] == '-';
  }

  datatype ResetReply =
    | PasswordRequired      // 400
    | PasswordTooShort      // 400
    | InvalidLink           // 400
    | InvalidToken          // 400
    | ResetFlagged(title: string, outcome: Outcome)   // 400 when anonymous, 200 when logged in
    | PasswordReset         // 200

  /** `ResetPasswordView.post`. Setting the password is recording the new
      one against the username; hashing is not modelled. */
  function Reset(d: Directory, l: Ledger, s: Session, requester: Option<UserId>,
                 uid: string, token: string, newPassword: Option<string>): (r: (Directory, Ledger, Session, ResetReply))
    requires requester.Some? ==> requester.value in l.accounts
    ensures newPassword.None? || newPassword.value == "" ==> r == (d, l, s, PasswordRequired)
    ensures newPassword.Some? && 0 < |newPassword.value| < MinPasswordLength ==> r == (d, l, s, PasswordTooShort)
    ensures r.3 == PasswordReset <==>
      && newPassword.Some? && |newPassword.value| >= MinPasswordLength
      && Decode(uid).Some? && Decode(uid).value in d.passwords
      && '-' in token
      && Decode(RSplitOnce(token, '-')[1]) == Decode(uid)
    ensures r.3 == PasswordReset ==>
      r == (d.(passwords := d.passwords[Decode(uid).value := newPassword.value]), l, s, PasswordReset)
    ensures r.3.ResetFlagged? ==>
      && r.0 == d
      && (r.1, r.2, r.3.outcome) == Discover(l, s, requester, r.3.title)
      && r.3.title in {TokenFormat, Predictable}
    ensures r.3.ResetFlagged? && r.3.title == TokenFormat <==>
      && newPassword.Some? && |newPassword.value| >= MinPasswordLength
      && Decode(uid).Some? && Decode(uid).value in d.passwords
      && '-' !in token
    ensures r.3.ResetFlagged? && r.3.title == Predictable <==>
      && newPassword.Some? && |newPassword.value| >= MinPasswordLength
      && Decode(uid).Some? && Decode(uid).value in d.passwords
      && '-' in token
      && Decode(RSplitOnce(token, '-')[1]).Some?
      && Decode(RSplitOnce(token, '-')[1]) != Decode(uid)
    ensures r.3 == InvalidLink <==>
      && newPassword.Some? && |newPassword.value| >= MinPasswordLength
      && (Decode(uid).None? || Decode(uid).value !in d.passwords)
    ensures r.3 == InvalidToken <==>
      && newPassword.Some? && |newPassword.value| >= MinPasswordLength
      && Decode(uid).Some? && Decode(uid).value in d.passwords
      && '-' in token
      && Decode(RSplitOnce(token, '-')[1]).None?
    ensures !r.3.ResetFlagged? ==> r.1 == l && r.2 == s
    ensures r.3 != PasswordReset ==> r.0 == d
  {
    if newPassword.None? || newPassword.value == "" then (d, l, s, PasswordRequired)
    else if |newPassword.value| < MinPasswordLength then (d, l, s, PasswordTooShort)
    else match Decode(uid)
      case None => (d, l, s, InvalidLink)
      case Some(name) =>
        if name !in d.passwords then (d, l, s, InvalidLink)
        else if '-' !in token then
          var (l', s', o) := Discover(l, s, requester, TokenFormat);
          (d, l', s', ResetFlagged(TokenFormat, o))
        else
          var parts := RSplitOnce(token, '-');
          match Decode(parts[1])
          case None => (d, l, s, InvalidToken)
          case Some(tokenName) =>
            if tokenName != name then
              var (l', s', o) := Discover(l, s, requester, Predictable);
              (d, l', s', ResetFlagged(Predictable, o))
            else
              (d.(passwords := d.passwords[name := newPassword.value]), l, s, PasswordReset)
  }

  /** The issued link resets the password of the user it was issued for,
      and of no one else, for every username, the empty one included. */
  lemma IssuedLinkResets(d: Directory, email: string, uuid: string, l: Ledger, s: Session,
                         requester: Option<UserId>, pw: string)
    requires email != "" && email in d.byEmail && d.byEmail[email] in d.passwords
    requires requester.Some? ==> requester.value in l.accounts
    requires |pw| >= MinPasswordLength
    ensures var link := Forgot(d, Some(email), uuid);
            && link.LinkIssued?
            && Reset(d, l, s, requester, link.uid, link.token, Some(pw))
               == (d.(passwords := d.passwords[d.byEmail[email] := pw]), l, s, PasswordReset)
  {
    var link := Forgot(d, Some(email), uuid);
    assert link.token == uuid + "-" + link.uid;
    assert '-' in link.token by {
      assert link.token[|uuid|] == '-';
    }
  }

  /** A reset whose token names another user than its uid is flagged. */
  lemma ResetMismatchIsFlagged(d: Directory, l: Ledger, s: Session, requester: Option<UserId>,
                               uid: string, token: string, pw: string, name: Username, tokenName: Username)
    requires Decode(uid) == Some(name) && name in d.passwords && |pw| >= MinPasswordLength
    requires '-' in token && Decode(RSplitOnce(token, '-')[1]) == Some(tokenName) && tokenName != name
    requires requester.Some? ==> requester.value in l.accounts
    ensures var r := Reset(d, l, s, requester, uid, token, Some(pw));
            r.3.ResetFlagged? && r.3.title == Predictable && r.0 == d
  {
  }

  /** Swapping in another user's name as the uid, with one's own token, is
      the predictable-token discovery, and changes no password. */
  lemma SwappedUidIsFlagged(d: Directory, l: Ledger, s: Session, requester: Option<UserId>,
                            uuid: string, own: Username, target: Username, pw: string)
    requires own != target && target in d.passwords && |pw| >= MinPasswordLength
    requires requester.Some? ==> requester.value in l.accounts
    ensures var r := Reset(d, l, s, requester, Encode(target), uuid + "-" + Encode(own), Some(pw));
            r.3.ResetFlagged? && r.3.title == Predictable && r.0 == d
  {
    var uid, e := Encode(target), Encode(own);
    DecodeEncode(target);
    DecodeEncode(own);
    RSplitJoin(uuid, e, '-');
    var token := uuid + "-" + e;
    assert token[|uuid|] == '-';
    ResetMismatchIsFlagged(d, l, s, requester, uid, token, pw, target, own);
  }
}

=== FILE: saverace.dfy ===
/** The save endpoints' race detector. Every save request of a user on a
    post records its time under the key `"{user}_{post}"`; ten requests
    within five seconds award the "Race Condition in Saved Posts" bug,
    empty that key and skip the toggle. Below the threshold the request
    toggles the save. The CTF save view and the post viewset's `save`
    action share this logic and differ only in how a missing post is
    answered. */
module SaveRace {
  import opened Text
  import opened Scoring
  import opened Social
  import opened Window

  const SaveWindow: int := 5
  const SaveThreshold: nat := 10
  const RaceTitle: string := "Race Condition in Saved Posts"
  const RacePoints: int := 50

  /** The in-memory attempt tracker: a list of times per key; a key never
      seen reads as the empty list. */
  type Tracker = map<string, seq<int>>

  function Attempts(t: Tracker, key: string): seq<int> {
    if key in t then t[key] else []
  }

  /** The tracker key `f"{user.id}_{post_id}"`. */
  function TrackerKey(u: UserId, p: PostId): string {
    NatToString(u) + "_" + NatToString(p)
  }

  lemma FirstUnderscore(a: string, b: string)
    requires '_' !in a
    ensures (a + "_" + b)[|a|] == '_'
    ensures forall i :: 0 <= i < |a| ==> (a + "_" + b)[i] != '_'
  {
    assert forall i :: 0 <= i < |a| ==> (a + "_" + b)[i] == a[i];
  }

  lemma SplitAtUnderscore(a: string, b: string, c: string, d: string)
    requires '_' !in a && '_' !in c
    requires a + "_" + b == c + "_" + d
    ensures a == c && b == d
  {
    var x, y := a + "_" + b, c + "_" + d;
    // the first underscore of either side sits right after its number
    FirstUnderscore(a, b);
    FirstUnderscore(c, d);
    assert |a| == |c|;
    assert a == x[..|a|] && c == y[..|c|];
    assert b == x[|a| + 1..] && d == y[|c| + 1..];
  }

  /** Different (user, post) pairs never share a tracker entry. */
  lemma TrackerKeyInjective(u1: UserId, p1: PostId, u2: UserId, p2: PostId)
    ensures TrackerKey(u1, p1) == TrackerKey(u2, p2) <==> u1 == u2 && p1 == p2
  {
    if TrackerKey(u1, p1) == TrackerKey(u2, p2) {
      var a, b, c, d := NatToString(u1), NatToString(p1), NatToString(u2), NatToString(p2);
      assert '_' !in a && '_' !in c by {
        assert forall k :: 0 <= k < |a| ==> IsDigit(a[k]);
        assert forall k :: 0 <= k < |c| ==> IsDigit(c[k]);
      }
      SplitAtUnderscore(a, b, c, d);
      NatToStringInjective(u1, u2);
      NatToStringInjective(p1, p2);
    }
  }

  datatype Site = Site(store: Store, ledger: Ledger, tracker: Tracker)

  datatype SaveReply =
    | RaceDetected(award: Award)    // 200 with the CTF award fields
    | Saved(saved: bool)            // 200 with the new saved state
    | PostNotFound                  // 404
    | ServerError                   // 500

  /** One save request on an existing post, at time `now`. */
  function SaveAttempt(site: Site, u: UserId, p: PostId, now: int): (r: (Site, SaveReply))
    requires p in site.store.posts && u in site.ledger.accounts
    ensures var key := TrackerKey(u, p);
            var recent := Prune(Attempts(site.tracker, key), now, SaveWindow);
            && r.0.tracker.Keys == site.tracker.Keys + {key}
            && (forall k :: k in site.tracker && k != key ==> r.0.tracker[k] == site.tracker[k])
            && (r.1.RaceDetected? <==> |recent| + 1 >= SaveThreshold)
            && (r.1.RaceDetected? ==>
                  && r.0.tracker[key] == []
                  && r.0.store == site.store
                  && r.0.ledger == TriggerBugFound(site.ledger, u, RaceTitle, RacePoints).ledger)
            && (!r.1.RaceDetected? ==>
                  && r.1 == Saved((u, p) !in site.store.saves)
                  && r.0.tracker[key] == recent + [now]
                  && r.0.store == SaveToggle(site.store, u, p).0
                  && r.0.ledger == site.ledger)
  {
    var key := TrackerKey(u, p);
    var attempts := Record(Attempts(site.tracker, key), now, SaveWindow);
    if |attempts| >= SaveThreshold then
      var step := TriggerBugFound(site.ledger, u, RaceTitle, RacePoints);
      (Site(site.store, step.ledger, site.tracker[key := []]), RaceDetected(step.award))
    else
      var (store, saved) := SaveToggle(site.store, u, p);
      (Site(store, site.ledger, site.tracker[key := attempts]), Saved(saved))
  }

  /** `SavePostView.post`: a missing post raises inside the view's
      catch-all handler, so it is answered 500, not 404. */
  function SavePostView(site: Site, u: UserId, p: PostId, now: int): (r: (Site, SaveReply))
    requires u in site.ledger.accounts
    ensures p !in site.store.posts ==> r == (site, ServerError)
    ensures p in site.store.posts ==> r == SaveAttempt(site, u, p, now)
    ensures r.1 != PostNotFound
  {
    if p !in site.store.posts then (site, ServerError) else SaveAttempt(site, u, p, now)
  }

  /** `PostViewSet.save`: the post is looked up before any handler, so a
      missing post is answered 404. */
  function ViewSetSave(site: Site, u: UserId, p: PostId, now: int): (r: (Site, SaveReply))
    requires u in site.ledger.accounts
    ensures p !in site.store.posts ==> r == (site, PostNotFound)
    ensures p in site.store.posts ==> r == SaveAttempt(site, u, p, now)
    ensures r.1 != ServerError
  {
    if p !in site.store.posts then (site, PostNotFound) else SaveAttempt(site, u, p, now)
  }

  /** No tracker entry ever holds ten or more attempts between requests. */
  ghost predicate BelowThreshold(t: Tracker) {
    forall k :: k in t ==> |t[k]| < SaveThreshold
  }

  lemma SaveAttemptKeepsBelowThreshold(site: Site, u: UserId, p: PostId, now: int)
    requires p in site.store.posts && u in site.ledger.accounts
    requires BelowThreshold(site.tracker)
    ensures BelowThreshold(SaveAttempt(site, u, p, now).0.tracker)
  {
  }

  /** Nine earlier attempts still inside the window: the next one is the
      tenth, awards the bug and leaves the save as it was. */
  lemma TenthAttemptTriggers(site: Site, u: UserId, p: PostId, now: int)
    requires p in site.store.posts && u in site.ledger.accounts
    requires var ts := Attempts(site.tracker, TrackerKey(u, p));
             |ts| == 9 && forall k :: 0 <= k < |ts| ==> now - ts[k] < SaveWindow
    ensures SaveAttempt(site, u, p, now).1.RaceDetected?
    ensures SaveAttempt(site, u, p, now).0.store.saves == site.store.saves
  {
  }

  /** Attempts older than the window do not count: if none of the earlier
      times is recent, the request toggles. */
  lemma StaleAttemptsDoNotCount(site: Site, u: UserId, p: PostId, now: int)
    requires p in site.store.posts && u in site.ledger.accounts
    requires var ts := Attempts(site.tracker, TrackerKey(u, p));
             forall k :: 0 <= k < |ts| ==> now - ts[k] >= SaveWindow
    ensures SaveAttempt(site, u, p, now).1 == Saved((u, p) !in site.store.saves)
  {
  }

  /** The request after a detected race starts a fresh count of one and
      toggles the save. */
  lemma AfterRaceNextAttemptToggles(site: Site, u: UserId, p: PostId, now: int, later: int)
    requires p in site.store.posts && u in site.ledger.accounts
    requires SaveAttempt(site, u, p, now).1.RaceDetected?
    ensures var s1 := SaveAttempt(site, u, p, now).0;
            && p in s1.store.posts && u in s1.ledger.accounts
            && SaveAttempt(s1, u, p, later).1 == Saved((u, p) !in site.store.saves)
            && SaveAttempt(s1, u, p, later).0.tracker[TrackerKey(u, p)] == [later]
  {
  }

  /** Two requests on a key holding at most seven attempts stay below the
      threshold, toggle twice and leave the saves as they were. */
  lemma TwoTogglesRestoreSaves(site: Site, u: UserId, p: PostId, now: int, later: int)
    requires p in site.store.posts && u in site.ledger.accounts
    requires |Attempts(site.tracker, TrackerKey(u, p))| + 2 < SaveThreshold
    ensures var (s1, r1) := SaveAttempt(site, u, p, now);
            && p in s1.store.posts && u in s1.ledger.accounts
            && var (s2, r2) := SaveAttempt(s1, u, p, later);
               && r1 == Saved((u, p) !in site.store.saves)
               && r2 == Saved((u, p) in site.store.saves)
               && s2.store.saves == site.store.saves
  {
  }
}

=== FILE: scoring.dfy ===
/** The capture-the-flag scoring ledger: users' points and solved-bug
    counters, the catalogue of bugs, the (user, bug) solve records and the
    leaderboard rows that mirror the users' totals. `TriggerBugFound` is the
    single entry point every detector calls. */
module Scoring {

  type UserId = nat

  /** The scoring fields of a user row. */
  datatype Account = Account(points: int, bugsSolved: int)

  /** A leaderboard row. */
  datatype Standing = Standing(totalPoints: int, totalBugsSolved: int)

  datatype Ledger = Ledger(
    accounts: map<UserId, Account>,
    bugs: map<string, int>,           // bug rows, by title, to their stored points
    solves: set<(UserId, string)>,    // at most one solve row per (user, bug)
    board: map<UserId, Standing>)     // at most one leaderboard row per user

  /** What `trigger_bug_found` reports back to its caller. */
  datatype Award = Award(success: bool, pointsAwarded: int, totalPoints: int)

  datatype Step = Step(ledger: Ledger, award: Award)

  /** The declared lower bounds of the scoring columns. */
  ghost predicate Valid(l: Ledger) {
    && (forall u :: u in l.accounts ==> l.accounts[u].points >= 0 && l.accounts[u].bugsSolved >= 0)
    && (forall t :: t in l.bugs ==> l.bugs[t] >= 1)
    && (forall u :: u in l.board ==> l.board[u].totalPoints >= 0 && l.board[u].totalBugsSolved >= 0)
  }

  /** Every solve row refers to an existing user and bug. */
  ghost predicate Referenced(l: Ledger) {
    forall p :: p in l.solves ==> p.0 in l.accounts && p.1 in l.bugs
  }

  predicate Mirrors(s: Standing, a: Account) {
    s.totalPoints == a.points && s.totalBugsSolved == a.bugsSolved
  }

  /** Every leaderboard row shows its user's current totals. */
  ghost predicate InSync(l: Ledger) {
    forall u :: u in l.board ==> u in l.accounts && Mirrors(l.board[u], l.accounts[u])
  }

  /** The titles of the bugs user `u` has solved. */
  function SolvedBy(solves: set<(UserId, string)>, u: UserId): set<string> {
    set p | p in solves && p.0 == u :: p.1
  }

  /** `BugSolve.save`: only the first save of a solve row credits the user. */
  function BugSolveSave(a: Account, bugPoints: int, isNew: bool): (r: Account)
    ensures isNew ==> r.points - a.points == bugPoints && r.bugsSolved - a.bugsSolved == 1
    ensures !isNew ==> r == a
  {
    if isNew then Account(a.points + bugPoints, a.bugsSolved + 1) else a
  }

  /** `Leaderboard.update_stats`: copy the user's totals into the row. */
  function UpdateStats(a: Account): (s: Standing)
    ensures Mirrors(s, a)
  {
    Standing(a.points, a.bugsSolved)
  }

  /** `trigger_bug_found(user, bug_title, points)` as written: the bug row is
      fetched or created with `points`; creating the solve row runs
      `BugSolve.save`, which credits the bug's stored points and one solve;
      then the function itself credits `points` and one solve again and
      refreshes the leaderboard row. A repeat solve changes no account. */
  function TriggerBugFound(l: Ledger, u: UserId, title: string, points: int): (r: Step)
    requires u in l.accounts
    ensures title in r.ledger.bugs
    ensures title in l.bugs ==> r.ledger.bugs == l.bugs
    ensures title !in l.bugs ==> r.ledger.bugs == l.bugs[title := points]
    ensures r.ledger.solves == l.solves + {(u, title)}
    ensures r.ledger.accounts.Keys == l.accounts.Keys
    ensures forall v :: v in l.accounts && v != u ==> r.ledger.accounts[v] == l.accounts[v]
    ensures forall v :: v in l.board && v != u ==> v in r.ledger.board && r.ledger.board[v] == l.board[v]
    ensures r.award.totalPoints == r.ledger.accounts[u].points
    ensures (u, title) in l.solves ==>
      && !r.award.success && r.award.pointsAwarded == 0
      && r.ledger.accounts == l.accounts && r.ledger.board == l.board
    ensures (u, title) !in l.solves ==>
      && r.award.success && r.award.pointsAwarded == points
      && r.ledger.accounts[u].points == l.accounts[u].points + r.ledger.bugs[title] + points
      && r.ledger.accounts[u].bugsSolved == l.accounts[u].bugsSolved + 2
      && r.ledger.board.Keys == l.board.Keys + {u}
      && Mirrors(r.ledger.board[u], r.ledger.accounts[u])
  {
    var bugPoints := if title in l.bugs then l.bugs[title] else points;
    var bugs := l.bugs[title := bugPoints];
    var a := l.accounts[u];
    if (u, title) in l.solves then
      Step(l.(bugs := bugs), Award(false, 0, a.points))
    else
      var saved := BugSolveSave(a, bugPoints, true);
      var credited := Account(saved.points + points, saved.bugsSolved + 1);
      var ledger := Ledger(l.accounts[u := credited], bugs, l.solves + {(u, title)},
                           l.board[u := UpdateStats(credited)]);
      Step(ledger, Award(true, points, credited.points))
  }

  /** Awarding is idempotent: once a user has solved a bug, asking again
      (with any points) awards nothing and leaves the ledger as it was. */
  lemma RepeatAwardIsNoOp(l: Ledger, u: UserId, title: string, points: int, again: int)
    requires u in l.accounts
    ensures var first := TriggerBugFound(l, u, title, points);
            var second := TriggerBugFound(first.ledger, u, title, again);
            && second.ledger == first.ledger
            && !second.award.success && second.award.pointsAwarded == 0
            && second.award.totalPoints == first.award.totalPoints
  {
  }

  /** A bug row keeps the points it was created with, whatever later callers
      pass. */
  lemma StoredPointsNeverChange(l: Ledger, u: UserId, title: string, points: int)
    requires u in l.accounts && title in l.bugs
    ensures TriggerBugFound(l, u, title, points).ledger.bugs[title] == l.bugs[title]
  {
  }

  /** With positive points the declared bounds are kept. */
  lemma TriggerKeepsValid(l: Ledger, u: UserId, title: string, points: int)
    requires Valid(l) && u in l.accounts && points >= 1
    ensures Valid(TriggerBugFound(l, u, title, points).ledger)
  {
  }

  /** The leaderboard never drifts from the users' totals. */
  lemma TriggerKeepsInSync(l: Ledger, u: UserId, title: string, points: int)
    requires InSync(l) && u in l.accounts
    ensures InSync(TriggerBugFound(l, u, title, points).ledger)
    ensures Referenced(l) ==> Referenced(TriggerBugFound(l, u, title, points).ledger)
  {
  }

  lemma SolvedByAdd(solves: set<(UserId, string)>, u: UserId, v: UserId, title: string)
    requires (u, title) !in solves
    ensures v == u ==> SolvedBy(solves + {(u, title)}, v) == SolvedBy(solves, v) + {title}
    ensures v == u ==> title !in SolvedBy(solves, v)
    ensures v != u ==> SolvedBy(solves + {(u, title)}, v) == SolvedBy(solves, v)
  {
  }

  /** As written, every solve is counted twice: each user's `bugs_solved` is
      twice the number of bugs they solved. */
  ghost predicate CountsTwice(l: Ledger) {
    forall u :: u in l.accounts ==> l.accounts[u].bugsSolved == 2 * |SolvedBy(l.solves, u)|
  }

  lemma {:induction false} TriggerKeepsCountsTwice(l: Ledger, u: UserId, title: string, points: int)
    requires CountsTwice(l) && u in l.accounts
    ensures CountsTwice(TriggerBugFound(l, u, title, points).ledger)
  {
    var r := TriggerBugFound(l, u, title, points).ledger;
    if (u, title) !in l.solves {
      forall v | v in r.accounts
        ensures r.accounts[v].bugsSolved == 2 * |SolvedBy(r.solves, v)|
      {
        SolvedByAdd(l.solves, u, v, title);
      }
    }
  }

  /** The double credit, on the privilege-escalation bug: a user with no
      points solving it for the first time is told `+50` but ends with 100
      points and two solved bugs. */
  lemma FirstSolveCountsTwice()
    ensures var l := Ledger(map[7 := Account(0, 0)], map[], {}, map[]);
            var r := TriggerBugFound(l, 7, "Privilege Escalation via API Endpoint", 50);
            && r.award.pointsAwarded == 50
            && r.ledger.accounts[7] == Account(100, 2)
            && r.ledger.board[7] == Standing(100, 2)
  {
  }

  /** The evidently intended step: the solve row's first save is the only
      credit, and the caller is told the points actually credited. */
  function TriggerBugFoundOnce(l: Ledger, u: UserId, title: string, points: int): (r: Step)
    requires u in l.accounts
    ensures r.ledger.solves == l.solves + {(u, title)}
    ensures r.ledger.accounts.Keys == l.accounts.Keys
    ensures forall v :: v in l.accounts && v != u ==> r.ledger.accounts[v] == l.accounts[v]
    ensures r.award.totalPoints == r.ledger.accounts[u].points
    ensures (u, title) in l.solves ==> !r.award.success && r.ledger.accounts == l.accounts
    ensures (u, title) !in l.solves ==>
      && r.award.success
      && r.ledger.accounts[u].points == l.accounts[u].points + r.award.pointsAwarded
      && r.ledger.accounts[u].bugsSolved == l.accounts[u].bugsSolved + 1
  {
    var bugPoints := if title in l.bugs then l.bugs[title] else points;
    var bugs := l.bugs[title := bugPoints];
    var a := l.accounts[u];
    if (u, title) in l.solves then
      Step(l.(bugs := bugs), Award(false, 0, a.points))
    else
      var saved := BugSolveSave(a, bugPoints, true);
      var ledger := Ledger(l.accounts[u := saved], bugs, l.solves + {(u, title)},
                           l.board[u := UpdateStats(saved)]);
      Step(ledger, Award(true, bugPoints, saved.points))
  }

  /** With the single credit, `bugs_solved` is exactly the number of solved
      bugs. */
  ghost predicate CountsOnce(l: Ledger) {
    forall u :: u in l.accounts ==> l.accounts[u].bugsSolved == |SolvedBy(l.solves, u)|
  }

  lemma {:induction false} OnceKeepsCountsOnce(l: Ledger, u: UserId, title: string, points: int)
    requires CountsOnce(l) && u in l.accounts
    ensures CountsOnce(TriggerBugFoundOnce(l, u, title, points).ledger)
  {
    var r := TriggerBugFoundOnce(l, u, title, points).ledger;
    if (u, title) !in l.solves {
      forall v | v in r.accounts
        ensures r.accounts[v].bugsSolved == |SolvedBy(r.solves, v)|
      {
        SolvedByAdd(l.solves, u, v, title);
      }
    }
  }
}

=== FILE: serializers.dfy ===
/** Field validators and display formatters of the serializers: comment
    text, caption and image validation, the "time ago" label and the caption
    preview of a notification's post. */
module Serializers {
  import opened Wrappers
  import opened Text

  const MaxCommentLength := 500
  const MaxCaptionLength := 2200
  const MaxImageBytes := 10 * 1024 * 1024
  const PreviewLength := 50

  datatype TextError = EmptyText | TextTooLong

  /** `validate_text` of both comment serializers: a missing, empty or
      all-whitespace value is refused; so is one whose raw length exceeds
      the limit; otherwise the stripped text is kept. */
  function ValidateText(value: Option<string>): (r: Result<string, TextError>)
    ensures r == Failure(EmptyText) <==> value.None? || AllSpace(value.value)
    ensures r == Failure(TextTooLong) <==>
      value.Some? && !AllSpace(value.value) && |value.value| > MaxCommentLength
    ensures r.Success? ==>
      && r.value == Strip(value.value)
      && 0 < |r.value| <= MaxCommentLength
      && !IsSpace(r.value[0]) && !IsSpace(r.value[|r.value| - 1])
  {
    if value.None? || value.value == "" || Strip(value.value) == "" then Failure(EmptyText)
    else if |value.value| > MaxCommentLength then Failure(TextTooLong)
    else Success(Strip(value.value))
  }

  /** Accepted text is a fixed point: validating it again keeps it. */
  lemma ValidateTextIdempotent(value: Option<string>)
    requires ValidateText(value).Success?
    ensures ValidateText(Some(ValidateText(value).value)) == ValidateText(value)
  {
    StripIdempotent(value.value);
  }

  /** The validator's limit applies before its own stripping: given one
      letter padded with 500 spaces, it refuses the value as too long
      although stripping leaves a single letter. */
  lemma PaddingCountsAgainstLimit()
    ensures var padded := "a" + seq(500, _ => ' ');
            ValidateText(Some(padded)) == Failure(TextTooLong) && Strip(padded) == "a"
  {
    var padded := "a" + seq(500, _ => ' ');
    assert padded[0] == 'a' && !IsSpace(padded[0]);
    assert !AllSpace(padded);
    assert forall k :: 1 <= k < |padded| ==> IsSpace(padded[k]);
    assert LeadingSpace(padded) == 0;
    assert TrailingSpace(padded) == 500 by {
      TrailingSpaceOfPadding(padded, 500);
    }
  }

  lemma {:induction false} TrailingSpaceOfPadding(s: string, n: nat)
    requires n < |s| && !IsSpace(s[|s| - 1 - n])
    requires forall k :: |s| - n <= k < |s| ==> IsSpace(s[k])
    ensures TrailingSpace(s) == n
    decreases n
  {
    if n > 0 {
      var init := s[..|s| - 1];
      assert forall k :: |init| - (n - 1) <= k < |init| ==> init[k] == s[k];
      TrailingSpaceOfPadding(init, n - 1);
    }
  }

  datatype CaptionError = CaptionTooLong

  /** `validate_caption` alone: an empty caption or one within the limit
      passes unchanged. */
  function ValidateCaption(value: string): (r: Result<string, CaptionError>)
    ensures r.Success? <==> |value| <= MaxCaptionLength
    ensures r.Success? ==> r.value == value
  {
    if value != "" && |value| > MaxCaptionLength then Failure(CaptionTooLong) else Success(value)
  }

  /** The caption field as a whole: the model's text field becomes a
      trimming `CharField` that accepts blanks, so the value is stripped
      before `validate_caption` sees it. */
  function CaptionField(raw: string): (r: Result<string, CaptionError>)
    ensures r.Success? <==> |Strip(raw)| <= MaxCaptionLength
    ensures r.Success? ==> r.value == Strip(raw) && |r.value| <= |raw|
  {
    ValidateCaption(Strip(raw))
  }

  /** Padding does not count against the caption limit: one letter followed
      by 2200 spaces is stored as that letter. */
  lemma PaddedCaptionAccepted()
    ensures var padded := "a" + seq(2200, _ => ' ');
            && ValidateCaption(padded) == Failure(CaptionTooLong)
            && CaptionField(padded) == Success("a")
  {
    var padded := "a" + seq(2200, _ => ' ');
    assert padded[0] == 'a' && !IsSpace(padded[0]);
    assert !AllSpace(padded);
    assert LeadingSpace(padded) == 0;
    assert TrailingSpace(padded) == 2200 by {
      TrailingSpaceOfPadding(padded, 2200);
    }
  }

  /** An uploaded file: its name (an unnamed file is falsy), size in bytes
      and its `content_type`, `None` when the file object has no such
      attribute. */
  datatype Upload = Upload(name: string, size: int, contentType: Option<string>)

  datatype ImageError = ImageTooLarge | UnsupportedFormat

  const AllowedTypes: set<string> := {"image/jpeg", "image/jpg", "image/png", "image/gif"}

  /** `validate_image`: only a present file is checked, size first. */
  function ValidateImage(value: Option<Upload>): (r: Result<Option<Upload>, ImageError>)
    ensures r.Success? ==> r.value == value
    ensures r == Failure(ImageTooLarge) <==>
      value.Some? && value.value.name != "" && value.value.size > MaxImageBytes
    ensures r == Failure(UnsupportedFormat) <==>
      && value.Some? && value.value.name != "" && value.value.size <= MaxImageBytes
      && value.value.contentType.Some? && value.value.contentType.value !in AllowedTypes
  {
    match value
    case None => Success(value)
    case Some(f) =>
      if f.name == "" then Success(value)
      else if f.size > MaxImageBytes then Failure(ImageTooLarge)
      else if f.contentType.Some? && f.contentType.value !in AllowedTypes then Failure(UnsupportedFormat)
      else Success(value)
  }

  /** An accepted file is small enough and of an allowed or undeclared
      type. */
  lemma AcceptedImageIsAllowed(f: Upload)
    requires f.name != "" && ValidateImage(Some(f)).Success?
    ensures f.size <= MaxImageBytes
    ensures f.contentType.None? || f.contentType.value in AllowedTypes
  {
  }

  const SecondsPerDay := 86400

  /** The label buckets of `get_time_ago`. */
  datatype Ago = Days(days: nat) | Hours(hours: nat) | Minutes(minutes: nat) | JustNow

  /** Which bucket an age of `delta` seconds falls into. A timedelta keeps
      `days` floored and `seconds` in [0, 86400), which Dafny's `/` and `%`
      reproduce for negative ages too. */
  function Bucket(delta: int): (b: Ago)
    ensures b.Days? <==> delta >= SecondsPerDay
    ensures b.Days? ==> b.days * SecondsPerDay <= delta < (b.days + 1) * SecondsPerDay
    ensures b.Hours? ==> b.hours * 3600 <= delta % SecondsPerDay < (b.hours + 1) * 3600 && 1 <= b.hours <= 23
    ensures b.Hours? <==> delta < SecondsPerDay && delta % SecondsPerDay > 3600
    ensures b.Minutes? ==> b.minutes * 60 <= delta % SecondsPerDay < (b.minutes + 1) * 60 && 1 <= b.minutes <= 60
    ensures b.Minutes? <==> delta < SecondsPerDay && 60 < delta % SecondsPerDay <= 3600
    ensures b == JustNow <==> delta < SecondsPerDay && delta % SecondsPerDay <= 60
  {
    var days := delta / SecondsPerDay;
    var seconds := delta % SecondsPerDay;
    if days > 0 then Days(days)
    else if seconds > 3600 then Hours(seconds / 3600)
    else if seconds > 60 then Minutes(seconds / 60)
    else JustNow
  }

  function Render(b: Ago): (s: string)
    ensures |s| >= 2
  {
    match b
    case Days(d) => NatToString(d) + "d"
    case Hours(h) => NatToString(h) + "h"
    case Minutes(m) => NatToString(m) + "m"
    case JustNow => "now"
  }

  /** Different buckets read differently. */
  lemma RenderInjective(a: Ago, b: Ago)
    requires Render(a) == Render(b)
    ensures a == b
  {
    // "now" starts with a letter, every other label with a digit
    if !a.JustNow? {
      NumberedLabel(a);
    }
    if !b.JustNow? {
      NumberedLabel(b);
    }
    if !a.JustNow? && !b.JustNow? {
      var s := Render(a);
      assert s[..|s| - 1] == NatToString(Count(a)) && s[|s| - 1] == Unit(a);
      assert s[..|s| - 1] == NatToString(Count(b)) && s[|s| - 1] == Unit(b);
      NatToStringInjective(Count(a), Count(b));
    }
  }

  function Count(b: Ago): nat {
    match b
    case Days(d) => d
    case Hours(h) => h
    case Minutes(m) => m
    case JustNow => 0
  }

  function Unit(b: Ago): char {
    match b
    case Days(_) => 'd'
    case Hours(_) => 'h'
    case Minutes(_) => 'm'
    case JustNow => 'w'
  }

  /** A numbered label is the count in decimal followed by its unit. */
  lemma NumberedLabel(b: Ago)
    requires !b.JustNow?
    ensures Render(b) == NatToString(Count(b)) + [Unit(b)]
    ensures IsDigit(Render(b)[0])
  {
  }

  /** `get_time_ago` for an age of `delta` seconds. */
  function TimeAgo(delta: int): (s: string)
    ensures s == Render(Bucket(delta))
  {
    var days := delta / SecondsPerDay;
    var seconds := delta % SecondsPerDay;
    if days > 0 then NatToString(days) + "d"
    else if seconds > 3600 then NatToString(seconds / 3600) + "h"
    else if seconds > 60 then NatToString(seconds / 60) + "m"
    else "now"
  }

  /** The boundaries are strict: exactly an hour reads "60m" and exactly a
      minute reads "now". */
  lemma TimeAgoBoundaries()
    ensures TimeAgo(3600) == "60m"
    ensures TimeAgo(60) == "now"
    ensures TimeAgo(86400) == "1d"
  {
    assert NatToString(60) == "60" by {
      assert NatToString(6) == "6";
    }
  }

  /** A timestamp ten seconds in the future reads as 23 hours ago. */
  lemma FutureReadsAsHours()
    ensures TimeAgo(-10) == "23h"
  {
    assert -10 / SecondsPerDay == -1 && -10 % SecondsPerDay == 86390;
    assert NatToString(23) == "23" by {
      assert NatToString(2) == "2";
    }
  }

  /** The caption shown with a notification's post: long captions are cut
      to their first 50 characters and marked with an ellipsis. */
  function CaptionPreview(caption: string): (r: string)
    ensures |caption| <= PreviewLength ==> r == caption
    ensures |caption| > PreviewLength ==>
      |r| == PreviewLength + 3 && StartsWith(caption, r[..PreviewLength]) && EndsWith(r, "...")
    ensures |r| <= PreviewLength + 3
  {
    if |caption| > PreviewLength then caption[..PreviewLength] + "..." else caption
  }

  /** The preview loses nothing of a short caption and keeps the start of a
      long one. */
  lemma PreviewKeepsStart(caption: string, k: nat)
    requires k < |caption| && k < PreviewLength
    ensures CaptionPreview(caption)[k] == caption[k]
  {
  }
}

=== FILE: social.dfy ===
/** The social graph: posts, likes, saves, follows and notifications, with
    the toggles, guards and notification rules of the post, follow and
    profile views. Each relation with a uniqueness constraint on its rows
    (one like, one save per (user, post); one follow per ordered pair) is a
    set of pairs, so the constraint holds by construction. */
module Social {
  import opened Wrappers
  import opened Text
  import opened Scoring

  type PostId = nat
  type CommentId = nat

  /** A post. The `Post` model declares no privacy field; `isPrivate` is
      the `is_private` flag the views read, reconstructed from that use. */
  datatype Post = Post(owner: UserId, isPrivate: bool, caption: string, imagePath: string)

  datatype Kind = LikeKind | CommentKind | FollowKind | SaveKind

  /** The fields a notification is looked up by. */
  datatype NoticeKey = NoticeKey(receiver: UserId, sender: UserId, kind: Kind,
                                 post: Option<PostId>, comment: Option<CommentId>)

  datatype Notification = Notification(key: NoticeKey, isRead: bool)

  datatype Store = Store(
    users: set<UserId>,
    posts: map<PostId, Post>,
    likes: set<(UserId, PostId)>,
    saves: set<(UserId, PostId)>,
    follows: set<(UserId, UserId)>,
    notifications: seq<Notification>)

  function KeysOf(ns: seq<Notification>): set<NoticeKey> {
    set k | 0 <= k < |ns| :: ns[k].key
  }

  /** No two notifications share their identifying fields. */
  ghost predicate DistinctKeys(ns: seq<Notification>) {
    forall i, j :: 0 <= i < j < |ns| ==> ns[i].key != ns[j].key
  }

  /** `create_notification` of the core views: nothing for a self-action,
      otherwise get-or-create on all identifying fields (a new one unread). */
  function Notify(ns: seq<Notification>, key: NoticeKey): (r: seq<Notification>)
    ensures key.receiver == key.sender ==> r == ns
    ensures key in KeysOf(ns) ==> r == ns
    ensures key.receiver != key.sender && key !in KeysOf(ns) ==>
      r == ns + [Notification(key, false)]
    ensures key.receiver != key.sender ==> key in KeysOf(r)
    ensures DistinctKeys(ns) ==> DistinctKeys(r)
  {
    if key.receiver == key.sender || key in KeysOf(ns) then ns
    else
      var r := ns + [Notification(key, false)];
      assert r[|ns|].key == key;
      r
  }

  /** A save notification already exists for (receiver, sender, post),
      whatever its comment field. */
  predicate HasSaveNotice(ns: seq<Notification>, receiver: UserId, sender: UserId, post: PostId) {
    exists k :: 0 <= k < |ns| && SaveNoticeFor(ns[k], receiver, sender, post)
  }

  predicate SaveNoticeFor(n: Notification, receiver: UserId, sender: UserId, post: PostId) {
    n.key.kind == SaveKind && n.key.receiver == receiver && n.key.sender == sender
    && n.key.post == Some(post)
  }

  /** At most one save notification per (receiver, sender, post). */
  ghost predicate OneSaveNotice(ns: seq<Notification>) {
    forall i, j :: 0 <= i < j < |ns| && ns[i].key.kind == SaveKind && ns[i].key.post.Some? ==>
      !SaveNoticeFor(ns[j], ns[i].key.receiver, ns[i].key.sender, ns[i].key.post.value)
  }

  /** `create_notification` of the CTF views: nothing for a self-action;
      for a save on a post, nothing when one already exists for (receiver,
      sender, post); otherwise always a new notification. */
  function NotifyCtf(ns: seq<Notification>, key: NoticeKey): (r: seq<Notification>)
    ensures key.receiver == key.sender ==> r == ns
    ensures (key.kind == SaveKind && key.post.Some?
             && HasSaveNotice(ns, key.receiver, key.sender, key.post.value)) ==> r == ns
    ensures r == ns || r == ns + [Notification(key, false)]
    ensures key.receiver != key.sender
            && !(key.kind == SaveKind && key.post.Some? && HasSaveNotice(ns, key.receiver, key.sender, key.post.value)) ==>
      r == ns + [Notification(key, false)]
    ensures key.kind == SaveKind && key.post.Some? && key.receiver != key.sender ==>
            HasSaveNotice(r, key.receiver, key.sender, key.post.value)
    ensures key.kind == SaveKind && OneSaveNotice(ns) ==> OneSaveNotice(r)
  {
    if key.receiver == key.sender then ns
    else if key.kind == SaveKind && key.post.Some?
            && HasSaveNotice(ns, key.receiver, key.sender, key.post.value) then ns
    else
      var r := ns + [Notification(key, false)];
      assert r[|ns|] == Notification(key, false);
      r
  }

  /** Users who like post `p`: the `like_count` the view reports. */
  function LikersOf(likes: set<(UserId, PostId)>, p: PostId): set<UserId> {
    set e | e in likes && e.1 == p :: e.0
  }

  datatype ToggleReply = NotFound | Toggled(on: bool, count: nat)

  /** `PostViewSet.like`: toggles the (user, post) like; a new like
      notifies the post's owner, unless that is the user. */
  function Like(s: Store, u: UserId, p: PostId): (r: (Store, ToggleReply))
    ensures p !in s.posts ==> r.0 == s && r.1 == NotFound
    ensures p in s.posts ==> r.1.Toggled?
    ensures p in s.posts ==> (r.1.on <==> (u, p) !in s.likes)
    ensures p in s.posts ==> r.0.likes == if (u, p) in s.likes then s.likes - {(u, p)} else s.likes + {(u, p)}
    ensures p in s.posts ==> r.1.count == |LikersOf(r.0.likes, p)|
    ensures r.0.posts == s.posts && r.0.saves == s.saves && r.0.follows == s.follows && r.0.users == s.users
    ensures (u, p) in s.likes || p !in s.posts || s.posts[p].owner == u ==> r.0.notifications == s.notifications
    ensures DistinctKeys(s.notifications) ==> DistinctKeys(r.0.notifications)
  {
    if p !in s.posts then (s, NotFound)
    else if (u, p) in s.likes then
      var likes := s.likes - {(u, p)};
      (s.(likes := likes), Toggled(false, |LikersOf(likes, p)|))
    else
      var likes := s.likes + {(u, p)};
      var ns := Notify(s.notifications, NoticeKey(s.posts[p].owner, u, LikeKind, Some(p), None));
      (s.(likes := likes, notifications := ns), Toggled(true, |LikersOf(likes, p)|))
  }

  /** Liking twice restores the likes, and the second call reports the
      opposite state. */
  lemma LikeTwiceRestores(s: Store, u: UserId, p: PostId)
    requires p in s.posts
    ensures var (s1, r1) := Like(s, u, p);
            var (s2, r2) := Like(s1, u, p);
            s2.likes == s.likes && r1.on != r2.on
  {
  }

  /** A like never notifies its own author. */
  lemma OwnLikeNeverNotifies(s: Store, u: UserId, p: PostId)
    requires p in s.posts && s.posts[p].owner == u
    ensures Like(s, u, p).0.notifications == s.notifications
  {
  }

  /** However often a user likes and unlikes, the owner holds at most one
      like notification from them for the post. */
  lemma {:induction false} LikeCyclesNotifyOnce(s: Store, u: UserId, p: PostId, n: nat)
    requires p in s.posts && DistinctKeys(s.notifications)
    ensures var t := LikeRepeat(s, u, p, n);
            DistinctKeys(t.notifications)
            && (s.posts[p].owner != u ==> NoticeCount(t.notifications, NoticeKey(s.posts[p].owner, u, LikeKind, Some(p), None)) <= 1)
    decreases n
  {
    if n > 0 {
      LikeCyclesNotifyOnce(s, u, p, n - 1);
    }
    DistinctKeysCountAtMostOne(LikeRepeat(s, u, p, n).notifications, NoticeKey(s.posts[p].owner, u, LikeKind, Some(p), None));
  }

  /** `n` successive like requests by `u` on `p`. */
  function LikeRepeat(s: Store, u: UserId, p: PostId, n: nat): (t: Store)
    ensures t.posts == s.posts
  {
    if n == 0 then s else Like(LikeRepeat(s, u, p, n - 1), u, p).0
  }

  function NoticeCount(ns: seq<Notification>, key: NoticeKey): nat {
    if |ns| == 0 then 0
    else NoticeCount(ns[..|ns| - 1], key) + if ns[|ns| - 1].key == key then 1 else 0
  }

  lemma {:induction false} DistinctKeysCountAtMostOne(ns: seq<Notification>, key: NoticeKey)
    requires DistinctKeys(ns)
    ensures NoticeCount(ns, key) <= 1
    ensures NoticeCount(ns, key) == 0 <==> key !in KeysOf(ns)
    decreases |ns|
  {
    if |ns| > 0 {
      var init, last := ns[..|ns| - 1], ns[|ns| - 1];
      assert DistinctKeys(init);
      DistinctKeysCountAtMostOne(init, key);
      assert KeysOf(ns) == KeysOf(init) + {last.key} by {
        assert forall k :: 0 <= k < |init| ==> init[k] == ns[k];
      }
      if last.key == key {
        assert forall k :: 0 <= k < |init| ==> init[k].key != key by {
          assert forall k :: 0 <= k < |init| ==> init[k] == ns[k];
        }
      }
    }
  }

  /** The save toggle below the race threshold, shared by the two save
      endpoints: flips (user, post) and, on a new save of someone else's
      post, sends at most one save notification per (owner, user, post). */
  function SaveToggle(s: Store, u: UserId, p: PostId): (r: (Store, bool))
    requires p in s.posts
    ensures r.1 <==> (u, p) !in s.saves
    ensures r.0.saves == if (u, p) in s.saves then s.saves - {(u, p)} else s.saves + {(u, p)}
    ensures r.0.posts == s.posts && r.0.likes == s.likes && r.0.follows == s.follows && r.0.users == s.users
    ensures (u, p) in s.saves || s.posts[p].owner == u ==> r.0.notifications == s.notifications
    ensures OneSaveNotice(s.notifications) ==> OneSaveNotice(r.0.notifications)
  {
    if (u, p) in s.saves then (s.(saves := s.saves - {(u, p)}), false)
    else
      var owner := s.posts[p].owner;
      var ns := if owner != u then NotifyCtf(s.notifications, NoticeKey(owner, u, SaveKind, Some(p), None))
                else s.notifications;
      (s.(saves := s.saves + {(u, p)}, notifications := ns), true)
  }

  /** No one follows themselves. */
  ghost predicate NoSelfFollow(s: Store) {
    forall e :: e in s.follows ==> e.0 != e.1
  }

  datatype FollowReply = UserNotFound | CannotFollowSelf | Following(isFollowing: bool)

  /** `FollowUserView.post`. */
  function Follow(s: Store, u: UserId, target: UserId): (r: (Store, FollowReply))
    ensures target !in s.users ==> r == (s, UserNotFound)
    ensures target in s.users && target == u ==> r == (s, CannotFollowSelf)
    ensures target in s.users && target != u ==>
      && r.1 == Following(true)
      && r.0.follows == s.follows + {(u, target)}
      && r.0.posts == s.posts && r.0.likes == s.likes && r.0.saves == s.saves
      && r.0.users == s.users
      && ((u, target) in s.follows ==> r.0 == s)
      && ((u, target) !in s.follows ==>
            r.0.notifications == Notify(s.notifications, NoticeKey(target, u, FollowKind, None, None)))
    ensures NoSelfFollow(s) ==> NoSelfFollow(r.0)
    ensures DistinctKeys(s.notifications) ==> DistinctKeys(r.0.notifications)
  {
    if target !in s.users then (s, UserNotFound)
    else if target == u then (s, CannotFollowSelf)
    else if (u, target) in s.follows then (s, Following(true))
    else
      var ns := Notify(s.notifications, NoticeKey(target, u, FollowKind, None, None));
      (s.(follows := s.follows + {(u, target)}, notifications := ns), Following(true))
  }

  /** `UnfollowUserView.post`. */
  function Unfollow(s: Store, u: UserId, target: UserId): (r: (Store, FollowReply))
    ensures target !in s.users ==> r == (s, UserNotFound)
    ensures target in s.users && target == u ==> r == (s, CannotFollowSelf)
    ensures target in s.users && target != u ==>
      r.1 == Following(false) && r.0 == s.(follows := s.follows - {(u, target)})
  {
    if target !in s.users then (s, UserNotFound)
    else if target == u then (s, CannotFollowSelf)
    else (s.(follows := s.follows - {(u, target)}), Following(false))
  }

  /** Following is idempotent, and so is unfollowing. */
  lemma FollowIdempotent(s: Store, u: UserId, target: UserId)
    ensures Follow(Follow(s, u, target).0, u, target) == Follow(s, u, target)
    ensures Unfollow(Unfollow(s, u, target).0, u, target) == Unfollow(s, u, target)
  {
    assert s.follows - {(u, target)} - {(u, target)} == s.follows - {(u, target)};
  }

  /** Follow, unfollow, follow again: the followed user still holds exactly
      the one follow notification from the first follow. */
  lemma RefollowDoesNotRenotify(s: Store, u: UserId, target: UserId)
    requires target in s.users && target != u && (u, target) !in s.follows
    requires NoticeKey(target, u, FollowKind, None, None) !in KeysOf(s.notifications)
    ensures var s1 := Follow(s, u, target).0;
            var s3 := Follow(Unfollow(s1, u, target).0, u, target).0;
            && s3.follows == s1.follows
            && s3.notifications == s1.notifications
            && s1.notifications == s.notifications + [Notification(NoticeKey(target, u, FollowKind, None, None), false)]
  {
  }

  /** The status a delete request answers with. */
  datatype DeleteReply = PostMissing | NoContent | Forbidden

  /** The owner's delete: the post goes, and so do the rows that reference
      it. */
  function RemovePost(s: Store, p: PostId): (t: Store)
    requires p in s.posts
    ensures t.posts == s.posts - {p}
    ensures forall e :: e in t.likes <==> e in s.likes && e.1 != p
    ensures forall e :: e in t.saves <==> e in s.saves && e.1 != p
    ensures forall n :: n in t.notifications <==> n in s.notifications && n.key.post != Some(p)
    ensures t.follows == s.follows && t.users == s.users
  {
    var likes := set e | e in s.likes && e.1 != p;
    var saves := set e | e in s.saves && e.1 != p;
    Store(s.users, s.posts - {p}, likes, saves, s.follows, DropPost(s.notifications, p))
  }

  /** `DELETE /posts/{id}/` as written: `perform_destroy` builds a 403
      reply for a non-owner but returns it to the viewset's `destroy`,
      which discards it and answers 204 No Content. The post stays. */
  function DeletePost(s: Store, u: UserId, p: PostId): (r: (Store, DeleteReply))
    ensures p !in s.posts ==> r == (s, PostMissing)
    ensures p in s.posts ==> r.1 == NoContent
    ensures p in s.posts && s.posts[p].owner != u ==> r.0 == s
    ensures p in s.posts && s.posts[p].owner == u ==> r.0 == RemovePost(s, p)
  {
    if p !in s.posts then (s, PostMissing)
    else if s.posts[p].owner != u then (s, NoContent)
    else (RemovePost(s, p), NoContent)
  }

  /** A request by someone other than the owner is told the delete
      succeeded, yet the post is still there. */
  lemma NonOwnerDeleteReportsSuccess(s: Store, u: UserId, p: PostId)
    requires p in s.posts && s.posts[p].owner != u
    ensures DeletePost(s, u, p).1 == NoContent
    ensures p in DeletePost(s, u, p).0.posts
  {
  }

  /** The evidently intended delete: a non-owner is refused with 403. */
  function DeletePostGuarded(s: Store, u: UserId, p: PostId): (r: (Store, DeleteReply))
    ensures p !in s.posts ==> r == (s, PostMissing)
    ensures p in s.posts ==> (r.1 == Forbidden <==> s.posts[p].owner != u)
    ensures r.1 == NoContent <==> p in s.posts && p !in r.0.posts
    ensures r.1 != NoContent ==> r.0 == s
  {
    if p !in s.posts then (s, PostMissing)
    else if s.posts[p].owner != u then (s, Forbidden)
    else (RemovePost(s, p), NoContent)
  }

  /** The two agree whenever the owner asks. */
  lemma GuardedDeleteAgreesForOwner(s: Store, u: UserId, p: PostId)
    requires p in s.posts && s.posts[p].owner == u
    ensures DeletePostGuarded(s, u, p) == DeletePost(s, u, p)
  {
  }

  function DropPost(ns: seq<Notification>, p: PostId): (r: seq<Notification>)
    ensures forall k :: 0 <= k < |r| ==> r[k].key.post != Some(p)
    ensures forall n :: n in ns && n.key.post != Some(p) ==> n in r
    ensures forall n :: n in r ==> n in ns && n.key.post != Some(p)
  {
    if |ns| == 0 then []
    else (if ns[0].key.post == Some(p) then [] else [ns[0]]) + DropPost(ns[1..], p)
  }

  /** `UserPostsView.get`: the owner sees all their posts; anyone else sees
      only the public ones. */
  function ProfilePosts(posts: map<PostId, Post>, viewer: UserId, owner: UserId): (r: set<PostId>)
    ensures forall id :: id in r ==> id in posts && posts[id].owner == owner
    ensures viewer != owner ==> forall id :: id in r ==> !posts[id].isPrivate
    ensures forall id :: id in posts && posts[id].owner == owner && (viewer == owner || !posts[id].isPrivate) ==> id in r
  {
    set id | id in posts && posts[id].owner == owner && (viewer == owner || !posts[id].isPrivate)
  }

  /** What the profile view answers: 500 when the lookup of the username
      fails (the 404 it raises is caught by the view's catch-all), else the
      listing. */
  datatype ProfileReply = FetchFailed | Listing(posts: set<PostId>)

  /** `UserPostsView.get` from the requested username; `byName` maps every
      registered username to its user. */
  function ProfileView(posts: map<PostId, Post>, byName: map<string, UserId>, viewer: UserId, username: string): (r: ProfileReply)
    ensures r == FetchFailed <==> username !in byName
    ensures r.Listing? ==> forall id :: id in r.posts <==>
      && id in posts && posts[id].owner == byName[username]
      && (viewer == byName[username] || !posts[id].isPrivate)
  {
    if username !in byName then FetchFailed
    else Listing(ProfilePosts(posts, viewer, byName[username]))
  }

  /** A private post shows up only on its owner's own view. */
  lemma PrivatePostsStayPrivate(posts: map<PostId, Post>, viewer: UserId, owner: UserId, id: PostId)
    requires id in posts && posts[id].isPrivate
    ensures id in ProfilePosts(posts, viewer, owner) <==> viewer == owner && posts[id].owner == owner
  {
  }

  datatype Message = Message(sender: UserId, receiver: UserId, text: string)
  datatype Refused = SelfMessage

  /** Inserting a direct message row: the `prevent_self_message` check
      constraint refuses a message to oneself. */
  function NewMessage(sender: UserId, receiver: UserId, text: string): (r: Result<Message, Refused>)
    ensures r.Failure? <==> sender == receiver
    ensures r.Success? ==> r.value.sender != r.value.receiver && r.value.text == text
  {
    if sender == receiver then Failure(SelfMessage) else Success(Message(sender, receiver, text))
  }
}

=== FILE: text.dfy ===
/** String helpers shared by the validators, the token parsers and the
    formatters: Python's notion of whitespace and `str.strip()`, ASCII
    lower-casing, prefix/suffix tests and decimal rendering of naturals. */
module Text {
  import opened Wrappers

  /** The characters Python's `str.isspace()` (and so `str.strip()`) treats
      as whitespace. */
  predicate IsSpace(c: char) {
    || ('\t' <= c <= '\r')
    || ('\U{1C}' <= c <= ' ')
    || c == '\U{85}' || c == '\U{A0}' || c == '\U{1680}'
    || ('\U{2000}' <= c <= '\U{200A}')
    || c == '\U{2028}' || c == '\U{2029}' || c == '\U{202F}'
    || c == '\U{205F}' || c == '\U{3000}'
  }

  predicate AllSpace(s: string) {
    forall k :: 0 <= k < |s| ==> IsSpace(s[k])
  }

  /** Number of leading whitespace characters. */
  function LeadingSpace(s: string): (n: nat)
    ensures n <= |s|
    ensures forall k :: 0 <= k < n ==> IsSpace(s[k])
    ensures n < |s| ==> !IsSpace(s[n])
  {
    if |s| == 0 || !IsSpace(s[0]) then 0 else 1 + LeadingSpace(s[1..])
  }

  /** Number of trailing whitespace characters. */
  function TrailingSpace(s: string): (n: nat)
    ensures n <= |s|
    ensures forall k :: |s| - n <= k < |s| ==> IsSpace(s[k])
    ensures n < |s| ==> !IsSpace(s[|s| - n - 1])
  {
    if |s| == 0 || !IsSpace(s[|s| - 1]) then 0 else 1 + TrailingSpace(s[..|s| - 1])
  }

  /** Start index of the text `str.strip()` keeps. */
  function StripStart(s: string): (i: nat)
    ensures i <= |s|
  {
    LeadingSpace(s)
  }

  /** End index (exclusive) of the text `str.strip()` keeps. */
  function StripEnd(s: string): (j: nat)
    ensures StripStart(s) <= j <= |s|
    ensures forall k :: j <= k < |s| ==> IsSpace(s[k])
    ensures StripStart(s) < j ==> !IsSpace(s[j - 1])
  {
    var t := s[StripStart(s)..];
    StripStart(s) + |t| - TrailingSpace(t)
  }

  /** Python's `str.strip()` with no argument. */
  function Strip(s: string): (r: string)
    ensures r == s[StripStart(s)..StripEnd(s)]
    ensures forall k :: 0 <= k < StripStart(s) ==> IsSpace(s[k])
    ensures forall k :: StripEnd(s) <= k < |s| ==> IsSpace(s[k])
    ensures |r| == 0 || (!IsSpace(r[0]) && !IsSpace(r[|r| - 1]))
    ensures |r| == 0 <==> AllSpace(s)
  {
    s[StripStart(s)..StripEnd(s)]
  }

  /** Stripping is idempotent: text without surrounding whitespace is
      returned unchanged. */
  lemma StripIdempotent(s: string)
    ensures Strip(Strip(s)) == Strip(s)
  {
    var r := Strip(s);
    if |r| > 0 {
      assert LeadingSpace(r) == 0;
      assert TrailingSpace(r) == 0;
    }
  }

  function LowerChar(c: char): (d: char)
  {
    if 'A' <= c <= 'Z' then (c as int + 32) as char else c
  }

  /** `str.lower()` restricted to ASCII letters; every other character is
      kept as is. */
  function Lower(s: string): (r: string)
    ensures |r| == |s|
    ensures forall k :: 0 <= k < |s| ==> r[k] == LowerChar(s[k])
  {
    seq(|s|, k requires 0 <= k < |s| => LowerChar(s[k]))
  }

  predicate StartsWith(s: string, p: string) {
    |p| <= |s| && s[..|p|] == p
  }

  predicate EndsWith(s: string, p: string) {
    |p| <= |s| && s[|s| - |p|..] == p
  }

  predicate IsDigit(c: char) {
    '0' <= c <= '9'
  }

  function DigitChar(d: nat): (c: char)
    requires d < 10
    ensures IsDigit(c)
  {
    ('0' as int + d) as char
  }

  function DigitValue(c: char): (d: nat)
    requires IsDigit(c)
    ensures d < 10 && DigitChar(d) == c
  {
    c as int - '0' as int
  }

  /** Decimal rendering of a natural, as Python's `str(n)` / an f-string. */
  function NatToString(n: nat): (r: string)
    ensures |r| >= 1
    ensures forall k :: 0 <= k < |r| ==> IsDigit(r[k])
    ensures |r| > 1 ==> r[0] != '0'
  {
    if n < 10 then [DigitChar(n)] else NatToString(n / 10) + [DigitChar(n % 10)]
  }

  /** Reads a string of decimal digits back into a natural. */
  function ParseNat(s: string): (n: nat)
    requires forall k :: 0 <= k < |s| ==> IsDigit(s[k])
  {
    if |s| == 0 then 0 else 10 * ParseNat(s[..|s| - 1]) + DigitValue(s[|s| - 1])
  }

  /** Rendering a natural in decimal loses nothing. */
  lemma {:induction false} ParseNatToString(n: nat)
    ensures ParseNat(NatToString(n)) == n
  {
    if n >= 10 {
      var r := NatToString(n);
      assert r[..|r| - 1] == NatToString(n / 10);
      ParseNatToString(n / 10);
    }
  }

  lemma NatToStringInjective(a: nat, b: nat)
    requires NatToString(a) == NatToString(b)
    ensures a == b
  {
    ParseNatToString(a);
    ParseNatToString(b);
  }
}

=== FILE: tokenauth.dfy ===
/** The WebSocket token middleware: where the token key comes from and who
    the connection is then authenticated as. The query string has already
    been parsed: `queryTokens` are the values of its `token` parameter, in
    order. Headers are (name, value) pairs as the ASGI scope lists them. */
module TokenAuth {
  import opened Wrappers
  import opened Text

  const AuthHeader := "authorization"
  const Scheme := "Token "

  datatype Header = Header(name: string, value: string)

  /** A header that carries a token: named exactly `authorization`, value
      starting with `Token `. */
  predicate IsTokenHeader(h: Header) {
    h.name == AuthHeader && StartsWith(h.value, Scheme)
  }

  /** The key of the first token header, if any: the value after its
      6-character scheme prefix. */
  function FirstHeaderToken(headers: seq<Header>): (r: Option<string>)
    ensures r.None? <==> forall i :: 0 <= i < |headers| ==> !IsTokenHeader(headers[i])
    ensures r.Some? ==> exists i :: 0 <= i < |headers| && IsTokenHeader(headers[i])
                          && r.value == headers[i].value[|Scheme|..]
                          && forall j :: 0 <= j < i ==> !IsTokenHeader(headers[j])
  {
    if |headers| == 0 then None
    else if IsTokenHeader(headers[0]) then Some(headers[0].value[|Scheme|..])
    else
      var r := FirstHeaderToken(headers[1..]);
      assert forall i :: 1 <= i < |headers| ==> headers[1..][i - 1] == headers[i];
      r
  }

  /** The header scan as the middleware runs it: a loop that stops at the
      first token header. */
  method ScanHeaders(headers: seq<Header>) returns (key: Option<string>)
    ensures key == FirstHeaderToken(headers)
  {
    key := None;
    var i := 0;
    while i < |headers|
      invariant 0 <= i <= |headers|
      invariant forall j :: 0 <= j < i ==> !IsTokenHeader(headers[j])
      invariant FirstHeaderToken(headers) == FirstHeaderToken(headers[i..])
      invariant key.None?
    {
      var h := headers[i];
      if h.name == AuthHeader {
        if StartsWith(h.value, Scheme) {
          key := Some(h.value[|Scheme|..]);
          return;
        }
      }
      assert headers[i..][1..] == headers[i + 1..];
      i := i + 1;
    }
  }

  /** The token key the middleware settles on: the first `token` query
      value when it is non-empty, otherwise the first token header. */
  function TokenKey(queryTokens: seq<string>, headers: seq<Header>): (r: Option<string>)
    ensures |queryTokens| > 0 && queryTokens[0] != "" ==> r == Some(queryTokens[0])
    ensures (|queryTokens| == 0 || queryTokens[0] == "") ==> r == FirstHeaderToken(headers)
  {
    var fromQuery := if |queryTokens| > 0 then queryTokens[0] else "";
    if fromQuery != "" then Some(fromQuery) else FirstHeaderToken(headers)
  }

  /** The user the connection runs as, `None` for the anonymous user:
      `tokens` maps every issued key to its user. */
  function ConnectionUser(tokens: map<string, nat>, queryTokens: seq<string>, headers: seq<Header>): (u: Option<nat>)
    ensures u.Some? <==> exists k :: TokenKey(queryTokens, headers) == Some(k) && k != "" && k in tokens
    ensures u.Some? ==> u.value == tokens[TokenKey(queryTokens, headers).value]
  {
    match TokenKey(queryTokens, headers)
    case Some(k) => if k != "" && k in tokens then Some(tokens[k]) else None
    case None => None
  }

  /** A non-empty query token decides alone: the headers are not read. */
  lemma QueryTokenWins(tokens: map<string, nat>, queryTokens: seq<string>, h1: seq<Header>, h2: seq<Header>)
    requires |queryTokens| > 0 && queryTokens[0] != ""
    ensures ConnectionUser(tokens, queryTokens, h1) == ConnectionUser(tokens, queryTokens, h2)
  {
  }

  /** Headers after the first token header are never read. */
  lemma {:induction false} LaterHeadersIgnored(first: seq<Header>, rest: seq<Header>)
    requires exists i :: 0 <= i < |first| && IsTokenHeader(first[i])
    ensures FirstHeaderToken(first + rest) == FirstHeaderToken(first)
  {
    var all := first + rest;
    assert all[0] == first[0];
    if !IsTokenHeader(first[0]) {
      var i :| 0 <= i < |first| && IsTokenHeader(first[i]);
      assert first[1..][i - 1] == first[i];
      LaterHeadersIgnored(first[1..], rest);
      assert all[1..] == first[1..] + rest;
      SkipHeader(all);
      SkipHeader(first);
    }
  }

  /** A first header without a token is skipped. */
  lemma SkipHeader(headers: seq<Header>)
    requires |headers| > 0 && !IsTokenHeader(headers[0])
    ensures FirstHeaderToken(headers) == FirstHeaderToken(headers[1..])
  {
  }

  /** A bare `Token ` header yields the empty key, which is anonymous, even
      when a valid token header follows. */
  lemma BareSchemeIsAnonymous(tokens: map<string, nat>, key: string)
    requires key in tokens
    ensures ConnectionUser(tokens, [], [Header(AuthHeader, Scheme), Header(AuthHeader, Scheme + key)]) == None
  {
    assert IsTokenHeader(Header(AuthHeader, Scheme));
  }

  /** Header names are matched exactly: `Authorization` is not read. */
  lemma HeaderNameIsExact(tokens: map<string, nat>, key: string)
    requires key in tokens
    ensures ConnectionUser(tokens, [], [Header("Authorization", Scheme + key)]) == None
  {
    assert !IsTokenHeader(Header("Authorization", Scheme + key)) by {
      assert "Authorization"[0] != AuthHeader[0];
    }
  }
}

=== FILE: window.dfy ===
/** The sliding time window both attempt detectors keep: a list of attempt
    times, pruned to those younger than the window, then extended by the
    current time. Times are whole seconds; the age test is the strict
    `now - t < width` of the source. */
module Window {

  predicate InWindow(t: int, now: int, width: int) {
    now - t < width
  }

  /** Keeps, in order, exactly the times still inside the window. */
  function Prune(ts: seq<int>, now: int, width: int): (r: seq<int>)
    ensures |r| <= |ts|
    ensures forall k :: 0 <= k < |r| ==> InWindow(r[k], now, width)
    ensures forall t :: t in r <==> t in ts && InWindow(t, now, width)
    ensures (forall k :: 0 <= k < |ts| ==> InWindow(ts[k], now, width)) ==> r == ts
    ensures (forall k :: 0 <= k < |ts| ==> !InWindow(ts[k], now, width)) ==> r == []
  {
    if |ts| == 0 then []
    else if InWindow(ts[0], now, width) then [ts[0]] + Prune(ts[1..], now, width)
    else Prune(ts[1..], now, width)
  }

  /** Pruning keeps the relative order: the result is a subsequence. */
  ghost predicate SubsequenceOf(r: seq<int>, ts: seq<int>)
    decreases |ts|
  {
    if |r| == 0 then true
    else if |ts| == 0 then false
    else if r[0] == ts[0] then SubsequenceOf(r[1..], ts[1..])
    else SubsequenceOf(r, ts[1..])
  }

  lemma {:induction false} PruneIsSubsequence(ts: seq<int>, now: int, width: int)
    ensures SubsequenceOf(Prune(ts, now, width), ts)
  {
    if |ts| > 0 {
      PruneIsSubsequence(ts[1..], now, width);
      var rest := Prune(ts[1..], now, width);
      if InWindow(ts[0], now, width) {
        assert ([ts[0]] + rest)[1..] == rest;
      } else {
        // every kept time is inside the window and ts[0] is not, so the
        // first kept time is not ts[0]
        assert |rest| > 0 ==> rest[0] != ts[0];
      }
    }
  }

  /** Pruning twice at the same instant changes nothing more. */
  lemma PruneIdempotent(ts: seq<int>, now: int, width: int)
    ensures Prune(Prune(ts, now, width), now, width) == Prune(ts, now, width)
  {
  }

  /** Record an attempt: prune, then append the current time. */
  function Record(ts: seq<int>, now: int, width: int): (r: seq<int>)
    requires width > 0
    ensures |r| >= 1 && r[|r| - 1] == now
    ensures forall k :: 0 <= k < |r| ==> InWindow(r[k], now, width)
    ensures |r| <= |ts| + 1
  {
    Prune(ts, now, width) + [now]
  }
}

=== FILE: wrappers.dfy ===
/** The optional value and the failure-carrying result every other module
    returns. */
module Wrappers {

  datatype Option<+T> = None | Some(value: T) {
    function GetOr(default: T): T {
      match this
      case Some(v) => v
      case None => default
    }
  }

  /** The outcome of an operation that can fail with an error `E`. */
  datatype Result<+T, +E> = Success(value: T) | Failure(error: E)
}
